=== FILE: README.md ===
# pyneed core, modelled in Dafny

This project models the parts of the `pyneed` utility library that hold
logic of their own, as opposed to thin wrappers around a client library.

- **`PgManager`** (`pyneed/db/postgre.py`):
  - the text of the `SELECT` statement that `select` builds: column list, filter clause, option clauses;
  - the connection manager's small state machine: `connect`, `cursor`, `execute`, `reset`, `close`, `__init__`;
  - bounded retry with `LIMIT_RETRIES = 5`.

  The database driver is an oracle, a script of attempt outcomes. Each
  attempt to connect or to run a statement takes the next outcome. What
  the manager does that an observer can see is returned as a list of
  events: connect attempts, statement attempts and sleeps.
- **`S3Url` and `S3Helper.truncate_s3_path`** (`pyneed/cloud/aws/s3_helper.py`):
  - the authority, path and query of an `s3://` URL with an ASCII authority, split as the `urlparse(url, allow_fragments=False)` of CPython 3.7.11 or a later 3.7 release splits it;
  - the `bucket` and `key` properties;
  - the string form that `geturl()` writes back;
  - the bucket/directory pair of `truncate_s3_path`.
- **`chunked_iterable`** (`pyneed/utils/common.py`): the generator run to the end, as a loop over a sequence.
- **`list_directory`** (`pyneed/utils/io.py`):
  - its sort key `_filename_without_prefix`;
  - the loop body it runs for each `(base, dirs, files)` triple that `os.walk` yields: a stable sort of the files by key, dropping hidden names, files before directories, each joined to `base`;
  - the whole walk over a directory tree that is given.

Files:

| file | module | contents |
|---|---|---|
| base.dfy | Base | `Option`, `Result` |
| strings.dfy | Strings | Python's `sep.join`, `str.split(c)`, `str.lstrip(c)`, and their round trips |
| decimal.dfy | Decimal | Python's `str` on integers, and a parser that reads it back |
| pg_query.dfy | PgQuery | the `SELECT` text builder |
| pg_manager.dfy | PgManager | connect / cursor / execute / reset / close / select / init |
| s3_url.dfy | S3Path | `S3Url` and `truncate_s3_path` |
| chunking.dfy | Chunking | `chunked_iterable` |
| dir_listing.dfy | DirListing | `_filename_without_prefix` and the `list_directory` step and walk |

Where the code and its documentation disagree, the model follows the code.

- **Option clause order.** The `select` docstring (postgre.py:105-107) shows ` LIMIT 10 ORDER BY random()`. The code appends `ORDER BY random()` first and `LIMIT` last. `PgQuery.ExampleRandomBeforeLimit` states the code's order.
- **`.url` in the doctest.** The `S3Url` doctest reads `s.url` (s3_helper.py:19-20), but the class has no `url` attribute. Its string form is `__str__`, which the model calls `S3Path.ToString`.
- **What `execute` returns.** The documentation says `execute` returns the rows of the statement it ran. After a retry, the code returns none of them; see "## Findings". `PgManager.Select` calls `execute` as written, so a `select` that needed a retry returns `[]`. `PgManager.SelectCorrected` is the same call over the corrected `execute`.

The package declares Python 3.7 (setup.py:24), with no patch level. The model follows CPython 3.7.11 or a later 3.7 release, the first to delete tab, carriage return and line feed from a URL. The string form follows the `urlunsplit` of that release:

- `//` is written only before a non-empty authority, because `s3` is not among the schemes `urllib.parse` knows to take one;
- a path that does not start with `/` gets one in front when there is an authority.

Three consequences follow:

- `s3:///k` is written back as `s3:/k` (`S3Path.EmptyBucketLosesSlashes`).
- `s3:////k` is written back as `s3://k`, in which `k` has become the bucket (`S3Path.DoubleSlashPathBecomesBucket`).
- `s3://b#x` is written back as `s3://b/#x` (`S3Path.HashAfterBucketGainsSlash`).

`#` ends the authority, as section 3.2 of RFC 3986 has it. It does so even though fragments are not split off, so `#` after the first `/` stays in the key (`S3Path.HashStaysInKey`).

## Model

| member | source | states |
|---|---|---|
| PgQuery.ColumnsRoundTrip | pyneed/db/postgre.py:118-119 | a list of column names is joined with `,` and no space: splitting the column text at `,` gives back the names, if none contains a comma |
| PgQuery.SelectQuery | pyneed/db/postgre.py:117-159 | the statement `select` builds starts with `SELECT <columns> FROM <table>`; `QueryShape`, `WhereClause` and `ClausesPresence` describe the rest, and `QueryShape` puts the option clauses at its end |
| PgQuery.QueryShape | pyneed/db/postgre.py:122-159 | after `SELECT <columns> FROM <table>` comes nothing exactly when there is no condition and no option clause; ` WHERE ` exactly when some group holds a condition; and otherwise the first option clause. In every case it starts with the `WHERE` clause, and the statement ends with the option clauses, so they follow the conditions |
| PgQuery.RenderValue | pyneed/db/postgre.py:132-147 | a string is written in single quotes, a list in parentheses, and any other scalar bare, starting with neither; `ValueRoundTrip` reads each back |
| PgQuery.ValueRoundTrip | pyneed/db/postgre.py:136-145 | quoted text, `null`, a parenthesised list of unquoted `str` renderings and a bare `str` scalar never look alike: the rendering of every value without string elements inside a list can be read back into that value |
| PgQuery.ListWordsCollide | pyneed/db/postgre.py:144-145 | list elements are not quoted: the list `["a,b"]` and the list `["a", "b"]` render to the same text |
| PgQuery.FragmentsOfGroup | pyneed/db/postgre.py:130-147 | within one operator group, fragment k is `<column> <op> <value>` for the k-th condition, in insertion order |
| PgQuery.FragmentsAppend | pyneed/db/postgre.py:127-150 | the fragments of consecutive operator groups are those of each group, group after group, all in one list |
| PgQuery.WhereClause | pyneed/db/postgre.py:125-153 | a ` WHERE` clause appears exactly when some group holds at least one condition |
| PgQuery.NoConditionsNoWhere | pyneed/db/postgre.py:150-153 | filters whose groups are all empty give no `WHERE` clause |
| PgQuery.WhereOfTwo | pyneed/db/postgre.py:127-153 | for any two runs of groups that each hold a condition, the `WHERE` clause of both is that of the first run, then ` AND `, then every condition of the second run joined by ` AND `: all conditions in insertion order, however many each group holds |
| PgQuery.ClausesPresence | pyneed/db/postgre.py:156-159 | random ordering appears iff `random`; `ORDER BY c` iff `order_by` is a non-empty `c`; `DESC` iff `ascending` is false, with or without an ordering; `LIMIT n` iff the limit is a non-zero `n` |
| PgQuery.ClausesOrder | pyneed/db/postgre.py:156-159 | option clauses always come in the order random ordering, `ORDER BY`, `DESC`, `LIMIT`, each at most once |
| PgQuery.ExampleDefaults | pyneed/db/postgre.py:95-99 | `select(table)` is `SELECT * FROM <table> LIMIT 1`: no `WHERE`, and the default limit 1 |
| PgQuery.ExampleEqualityAndLimit | pyneed/db/postgre.py:136-159 | `select("t", filters={"=": {"a": 1}}, limit=5)` is `SELECT * FROM t WHERE a = 1 LIMIT 5` |
| PgQuery.ExampleQuotedText | pyneed/db/postgre.py:136-137 | a string value is quoted: `WHERE name = 'bob'` |
| PgQuery.ExampleBareInteger | pyneed/db/postgre.py:144-147 | an integer value is not quoted: `WHERE age = 5` |
| PgQuery.TitleIsNull | pyneed/db/postgre.py:139-140 | `{"is": {"title": None}}` gives the fragment `title is null` |
| PgQuery.IdInList | pyneed/db/postgre.py:144-145 | `{"in": {"id": [1, 2, 3]}}` gives the fragment `id in (1,2,3)` |
| PgQuery.ExampleNullAndMembership | pyneed/db/postgre.py:125-159 | two groups keep their insertion order, joined by ` AND `, and a limit of 0 adds no `LIMIT` |
| PgQuery.ExampleRandomBeforeLimit | pyneed/db/postgre.py:156-159 | `columns=['a','b'], limit=10, random=True` gives `SELECT a,b FROM t ORDER BY random() LIMIT 10` (the code's order, not the docstring's) |
| PgQuery.ExampleDescWithoutOrder | pyneed/db/postgre.py:158-159 | `ascending=False` without any ordering still appends ` DESC` |
| PgManager.Connect | pyneed/db/postgre.py:19-46 | a present connection is kept with no attempt; success is exactly having a connection; a new connection gets a fresh serial; a failed connect leaves the manager as it was; the cursor is untouched; no statement runs |
| PgManager.ConnectAttempts | pyneed/db/postgre.py:19-46 | closed form of `connect`: it makes one attempt past the leading `OperationalError`s, capped by the budget `LIMIT_RETRIES - retry + 1` (1 without `reconnect`); it uses up exactly those outcomes and ends with the first other outcome, or with `OperationalError` once the budget is spent |
| PgManager.ConnectGivesUp | pyneed/db/postgre.py:36-44 | when every attempt raises `OperationalError` and `reconnect` is set, `connect` makes exactly `LIMIT_RETRIES + 1` attempts, re-raises the error, and leaves no connection |
| PgManager.ConnectLogShape | pyneed/db/postgre.py:41-44 | the attempts alternate with sleeps of the constant 5 seconds: `n` attempts, `n - 1` sleeps |
| PgManager.ConnectOnce | pyneed/db/postgre.py:37-38 | with `reconnect` off, `connect` makes exactly one attempt and ends with its outcome |
| PgManager.ConnectRaisesOtherAtOnce | pyneed/db/postgre.py:45-46 | any error other than `OperationalError` is raised by the first attempt, without retry |
| PgManager.OpenCursor | pyneed/db/postgre.py:48-54 | an open cursor is kept as is; otherwise the manager connects if needed and opens a fresh, empty cursor on the current connection; on failure nothing changes |
| PgManager.Close | pyneed/db/postgre.py:82-89 | afterwards there is neither a connection nor a cursor, and the other fields are unchanged |
| PgManager.CloseIdempotent | pyneed/db/postgre.py:82-89 | closing twice is closing once |
| PgManager.Reset | pyneed/db/postgre.py:77-80 | on success the manager holds a new connection with the next serial and an empty open cursor on it; on failure it holds neither; no statement runs |
| PgManager.ResetIsFresh | pyneed/db/postgre.py:77-80 | after a successful reset, neither the connection nor the cursor is the one held before |
| PgManager.Fetch | pyneed/db/postgre.py:72-75 | `fetchall()` hands back all pending rows and empties the buffer; `fetchone()` hands back the first row (or none) and removes it |
| PgManager.Execute | pyneed/db/postgre.py:56-75 | corrected execute: on success, the last event is a successful attempt at this query, and the caller gets exactly that attempt's rows (the first row for `is_one`); the manager stays valid |
| PgManager.ExecuteBacksOff | pyneed/db/postgre.py:61-69 | every statement attempt but the last raised a `DatabaseError`, and is followed at once by a sleep of 1 and the first connect attempt of the reset; only the last attempt can succeed |
| PgManager.ExecuteRunsQuery | pyneed/db/postgre.py:59-69 | every statement attempt, retries included, runs the same query text |
| PgManager.ExecuteBounded | pyneed/db/postgre.py:62-69 | `execute` makes at most `LIMIT_RETRIES - retry + 1` statement attempts |
| PgManager.ExecuteGivesUp | pyneed/db/postgre.py:61-69 | when every attempt raises a `DatabaseError` and every reconnect succeeds, `execute` makes exactly `LIMIT_RETRIES - retry + 1` attempts, each but the last followed by a sleep and one connect attempt, and raises the last error |
| PgManager.ExecuteRaisesOtherAtOnce | pyneed/db/postgre.py:70-71 | an error that is not a `DatabaseError` is raised by the first attempt, without retry |
| PgManager.ExecuteAsWritten | pyneed/db/postgre.py:56-75 | `execute` exactly as written: on success the last event is a successful attempt at the query; when that first attempt is the only one, the caller gets its rows (`fetchone()` or `fetchall()`); after a retry, no rows |
| PgManager.AsWrittenSingleAttempt | pyneed/db/postgre.py:56-75 | when the first attempt is not retried, the as-written `execute` is the corrected one: the same events and, for the same `is_one`, the same result |
| PgManager.AsWrittenAgrees | pyneed/db/postgre.py:56-75 | the as-written and the corrected `execute` make the same attempts and use the same outcomes, whatever `is_one` is; they fail together and raise the same error |
| PgManager.AsWrittenRetryLosesRows | pyneed/db/postgre.py:68-75 | whenever the first attempt raises and the call still succeeds, the as-written `execute` hands back no rows |
| PgManager.AsWrittenCounterexample | pyneed/db/postgre.py:68-75 | one failed attempt, a reconnect, then one row: the as-written `execute` returns `[]`, the corrected one returns the row |
| PgManager.Select | pyneed/db/postgre.py:162-163 | `last_query` is exactly the statement built for the call; on success the last event is a successful attempt at it; the caller gets that attempt's rows when it was the first, and `[]` after a retry |
| PgManager.SelectRunsItsQuery | pyneed/db/postgre.py:162-163 | every statement attempt of `select` runs the query it built, at most `LIMIT_RETRIES + 1` times |
| PgManager.SelectCorrected | pyneed/db/postgre.py:162-163 | `select` over the corrected `execute`: a successful result is the rows of the attempt that succeeded, retried or not |
| PgManager.SelectsAgree | pyneed/db/postgre.py:162-163 | the two versions of `select` make the same attempts, fail together, and return the same result when there was a single attempt |
| PgManager.Init | pyneed/db/postgre.py:12-17 | a new manager has `reconnect` set and no `last_query`; on success it holds connection 0 and an empty open cursor on it; on failure it holds neither |
| S3Path.Parse | pyneed/cloud/aws/s3_helper.py:23-24 | the parsed authority never holds an unpaired bracket; unpaired brackets are `ValueError` |
| S3Path.ParseOf | pyneed/cloud/aws/s3_helper.py:23-28 | in `s3://<bucket><rest>` with an ASCII bucket, the bucket runs to the first `/`, `?` or `#`, and the rest is divided into path and query at its first `?` |
| S3Path.Bucket | pyneed/cloud/aws/s3_helper.py:26-28 | the bucket is the authority, which the string form writes right after `s3://`; `ParseOf` and `DocExample` say what it is for a URL |
| S3Path.Key | pyneed/cloud/aws/s3_helper.py:30-35 | the key never starts with `/`; for a path without `?`, it holds a `?` exactly when there is a query; `KeyRoundTrip` gives it back as written |
| S3Path.ToString | pyneed/cloud/aws/s3_helper.py:37-38 | the string form starts with `s3:`, and with `s3://<bucket>` for a non-empty bucket; `StringRoundTrip` gives the URL back |
| S3Path.ComponentsRecompose | pyneed/cloud/aws/s3_helper.py:24 | authority, path and query put side by side give back the text, with a `?` between path and query when there was one |
| S3Path.KeyRoundTrip | pyneed/cloud/aws/s3_helper.py:30-35 | the key is the text after the bucket's `/`, `?` and `#` included, as long as it does not start with `/` and any `?` in it is followed by something |
| S3Path.StringRoundTrip | pyneed/cloud/aws/s3_helper.py:37-38 | the string form of a parsed `s3://bucket[/path][?query]` is the URL it came from |
| S3Path.DocExampleParses | pyneed/cloud/aws/s3_helper.py:14 | `s3://bucket/hello/world` parses to the authority `bucket` and the path `/hello/world` |
| S3Path.DocExample | pyneed/cloud/aws/s3_helper.py:15-18 | its bucket is `bucket` and its key is `hello/world` |
| S3Path.DocExampleString | pyneed/cloud/aws/s3_helper.py:19-20 | its string form is `s3://bucket/hello/world` |
| S3Path.HashStaysInKey | pyneed/cloud/aws/s3_helper.py:24 | `#` does not start a fragment: the key of `s3://b/a#c` is `a#c` |
| S3Path.TrailingQuestionMarkLost | pyneed/cloud/aws/s3_helper.py:32-35 | `s3://b/k?` parses exactly like `s3://b/k`: an empty query is lost with its `?` |
| S3Path.EmptyBucketParses | pyneed/cloud/aws/s3_helper.py:27-28 | `s3:///k` has an empty bucket and the path `/k` |
| S3Path.EmptyBucketKey | pyneed/cloud/aws/s3_helper.py:35 | the key of `s3:///k` is still `k` |
| S3Path.EmptyBucketLosesSlashes | pyneed/cloud/aws/s3_helper.py:37-38 | the string form of `s3:///k` is `s3:/k` |
| S3Path.HashAfterBucketParses | pyneed/cloud/aws/s3_helper.py:24-28 | in `s3://b#x` the `#` ends the bucket, leaving the path `#x` |
| S3Path.DoubleSlashPathBecomesBucket | pyneed/cloud/aws/s3_helper.py:24-38 | `s3:////k` parses with an empty bucket and the path `//k`; its string form is `s3://k`, which parses with the bucket `k` |
| S3Path.HashAfterBucketGainsSlash | pyneed/cloud/aws/s3_helper.py:37-38 | the string form of `s3://b#x` is `s3://b/#x` |
| S3Path.TruncateKey | pyneed/cloud/aws/s3_helper.py:184-186 | the destination ends with `/`: it is the key up to and including its last `/`, or `/` alone when the key has none |
| S3Path.TruncateS3Path | pyneed/cloud/aws/s3_helper.py:179-187 | fails exactly when parsing fails; otherwise returns the bucket unchanged |
| S3Path.TruncateS3PathDestination | pyneed/cloud/aws/s3_helper.py:184-187 | the destination returned is the key's prefix up to its last `/`, or `/` |
| S3Path.TruncateS3PathEndsWithSlash | pyneed/cloud/aws/s3_helper.py:186-187 | the destination returned always ends with `/` |
| S3Path.TruncateIdempotent | pyneed/cloud/aws/s3_helper.py:184-186 | a key ending with `/` is its own destination, so truncating twice is truncating once |
| Chunking.ChunkedIterable | pyneed/utils/common.py:6-17 | a size that is negative or above `sys.maxsize` is an error (`islice` raises `ValueError`), reported as `NegativeSize` exactly when negative; otherwise the chunks are well formed, lay end to end to the input, number the ceiling of `n / size`, and are none at all for an empty input or size 0 |
| Chunking.ChunksFlatten | pyneed/utils/common.py:12-17 | laying the chunks end to end gives back the input |
| Chunking.ChunksWellChunked | pyneed/utils/common.py:14-16 | no chunk is empty or longer than `size`, and every chunk but the last holds exactly `size` |
| Chunking.ChunksCount | pyneed/utils/common.py:12-17 | there are `ceil(n / size)` chunks |
| Chunking.ChunksUnique | pyneed/utils/common.py:12-17 | any split of the input into well-formed chunks is the one the generator yields |
| Chunking.ChunksNonEmptyInput | pyneed/utils/common.py:14-16 | there are no chunks exactly when the size is 0 or the input is empty |
| Chunking.ExampleFiveByTwo | pyneed/utils/common.py:12-17 | five elements in chunks of two give `[1,2]`, `[3,4]`, `[5]` |
| DirListing.FilenameWithoutPrefix | pyneed/utils/io.py:90-92 | a name without `_` has the empty key |
| DirListing.KeyAfterFirstUnderscore | pyneed/utils/io.py:92 | a name with a `_` has as key exactly what follows its first `_`, later underscores kept |
| DirListing.KeyOfPrefixed | pyneed/utils/io.py:92 | any `_`-free prefix and a `_` put in front of a name give that name as the key |
| DirListing.SortByKey | pyneed/utils/io.py:78 | `sorted(files, key=_filename_without_prefix)` rearranges the names into non-decreasing key order; `SortStable` adds that it is stable |
| DirListing.SortSorted | pyneed/utils/io.py:78 | the sort orders its output non-decreasingly by key |
| DirListing.SortStable | pyneed/utils/io.py:78 | the sort is stable: for every key, the names with that key keep their input order |
| DirListing.KeepVisibleMembers | pyneed/utils/io.py:80 | a name survives the hidden filter exactly when it is present and does not start with `.` |
| DirListing.VisibleFilesSorted | pyneed/utils/io.py:78-80 | sorting and then dropping hidden names is sorting only the visible names |
| DirListing.DirStep | pyneed/utils/io.py:76-84 | everything one directory's step lists sits directly under that directory; `DirStepShape` gives its order |
| DirListing.DirStepShape | pyneed/utils/io.py:78-84 | the step lists the visible files, sorted, then the visible directories in walk order, each joined to `base`; its length is their number together |
| DirListing.DirStepNoHidden | pyneed/utils/io.py:80-84 | nothing the step lists has a hidden last component, and everything sits directly under `base` |
| DirListing.DirStepFilesOrdered | pyneed/utils/io.py:78-81 | the files listed are exactly the visible files, as a multiset, ordered non-decreasingly by key |
| DirListing.DirStepFilesStable | pyneed/utils/io.py:78-81 | visible files with equal keys are listed in their input order |
| DirListing.StepListsVisibleFile | pyneed/utils/io.py:80-81 | every visible file is listed under `base` |
| DirListing.HiddenDirNotPruned | pyneed/utils/io.py:76-84 | a visible file of any directory in the tree is listed, however deep and under however many hidden directories: hidden directories are left out of the results but still walked |
| DirListing.VisibleDirListed | pyneed/utils/io.py:76-84 | a visible directory at any depth is listed, whether its parents are hidden or not |
| DirListing.WalkNoHidden | pyneed/utils/io.py:76-84 | no path the walk lists ends in a hidden name |
| DirListing.Walk | pyneed/utils/io.py:76-84 | every path the walk lists lies strictly under the directory walked |
| DirListing.ListDirectory | pyneed/utils/io.py:66-87 | a path that is neither a file nor a directory (missing, a FIFO, a socket, a device, a broken link) is `ValueError`; a file gives just itself; a directory gives paths that all lie under it |

## Left out

- The psycopg2 driver: connecting, running a statement, `fetchone`/`fetchall` and the named-tuple cursor. An outcome script stands in for it.
- The credentials in `affinity_db_config`, which the class never defines (postgre.py:26-29). They are external.
- `time.sleep` and `print`. A sleep is recorded as an event carrying its constant duration; messages are not modelled.
- `batch_execute` (postgre.py:165-170): a server-side streaming cursor with no logic of its own.
- Concurrency: the manager is single-threaded, and so is the model.
- S3 upload, download, listing and object get/put (s3_helper.py:41-176): network I/O through boto3.
- `pprint_dict`, the file, JSON, pickle and archive helpers of io.py, and `pyneed/web/scrape.py`: I/O only.
- S3Path.Parse: only URLs that start with `s3://` are parsed. Other schemes, relative references and the rest of general `urlparse` are not modelled.
- S3Path.Parse: CPython 3.7.0 to 3.7.10 keep tab, carriage return and line feed in the URL, so `S3Url("s3://a\tb/k").bucket` is `a\tb` there. The model deletes them, as 3.7.11 and later do, and gives `ab`.
- S3Path.Parse: from CPython 3.7.3, for an authority with a character beyond ASCII, `urlsplit` applies NFKC normalisation and raises `ValueError` if the result holds `/`, `?`, `#`, `@` or `:`. This check is not modelled: Unicode normalisation is outside the model. `Parse` accepts such an authority, and every lemma that promises a successful parse requires an ASCII bucket.
- S3Path.Parse: a bracketed authority is checked only for pairing, as CPython 3.7 does. Releases after 3.7 also validate it as an IPv6 address; that check is not modelled.
- PgQuery.RenderValue: a list element is an integer, a boolean or a string; its `str` is modelled. Floats, `None`, nested containers and objects with a custom `__str__` are not. A tuple or dict is modelled as the list of its iteration order (a dict's keys, in insertion order). A set is given as the list of its iteration order too, which is hash order and not insertion order: `{3, 1, 2}` renders `(1,2,3)`, and a set of strings varies with `PYTHONHASHSEED`. The model does not compute that order.
- PgQuery.RenderValue: a scalar value is an integer or a boolean. A scalar float, `Decimal`, `datetime` or other object that takes the bare `str(value)` path is not modelled, because `Num` holds no such value.
- PgQuery.SelectSpec: `columns` other than a list is used as text, which covers a string. Objects whose `str` differs are not modelled. `ascending` is a boolean: a non-boolean falsy value such as `0` is not modelled (the code tests `is False`). A `limit` of `None` is not modelled; `0` stands for every falsy limit.
- Chunking.ChunkedIterable: a `size` of `None`, which `islice` reads as "no limit", is not modelled. Neither are iterators that are not finite sequences. The `sys.maxsize` bound is that of a 64-bit build (2^63 - 1); on a 32-bit build it is 2^31 - 1.
- DirListing.ListDirectory: the order in which `os.walk` lists a directory's entries comes from the file system. The model takes it as given by the order of the tree. Symbolic links followed into cycles (`followlinks=True`) are not modelled, since the tree is finite. A name is a sequence of Unicode scalar values: the lone surrogates that `os.walk` returns for undecodable bytes (the `surrogateescape` error handler) cannot be written as a Dafny `char`, so such names are not modelled.
- DirListing.JoinAll: `Path(base) / f` is modelled as appending one component. `pathlib`'s normalisation is not modelled: an absolute `f`, or `.` and `..` components.
- PgManager.Fetch: `fetchall()` after a statement that returns no result set raises `ProgrammingError` in psycopg2. The model lets it hand back no rows.

## Findings

| source | as written | input that shows it | evidently intended | confidence | as-written member | corrected member |
|---|---|---|---|---|---|---|
| pyneed/db/postgre.py:68-75 | after a retried error, the recursive `self.execute(query, retry_counter)` runs the statement and reads all its rows with `fetchall()`, because `is_one` is not forwarded. Its result is discarded, and the outer call then fetches again from the cursor it has just drained | first attempt raises `OperationalError`, the reconnect succeeds, the second attempt returns one row: `execute` returns `[]` (or `None` with `is_one`) | the retried call's result, with `is_one` forwarded, is what `execute` returns | high, not executed | PgManager.ExecuteAsWritten, PgManager.Select, PgManager.AsWrittenCounterexample, PgManager.AsWrittenRetryLosesRows | PgManager.Execute, PgManager.SelectCorrected |

=== FILE: base.dfy ===
/** Failure-carrying wrappers shared by every module of the model. */
module Base {

  /** A value that may be absent: Python's `None` versus a present value. */
  datatype Option<+T> = None | Some(value: T)

  /** The outcome of an operation that either returns a value or raises an exception. */
  datatype Result<+T, +E> = Success(value: T) | Failure(error: E)
}

=== FILE: chunking.dfy ===
/** `chunked_iterable` (pyneed/utils/common.py): consecutive slices of at
    most `size` elements, taken until a slice comes back empty. */
module Chunking {
  import opened Base

  /** `itertools.islice` raises `ValueError` for a stop that is negative or
      beyond `sys.maxsize`. */
  datatype ChunkError = NegativeSize | SizeTooLarge

  /** `sys.maxsize` on a 64-bit build: the largest `Py_ssize_t`. */
  const MAX_SIZE: int := 0x7FFF_FFFF_FFFF_FFFF

  /** All chunks laid end to end, in order. */
  function Flatten<T>(chunks: seq<seq<T>>): seq<T>
  {
    if chunks == [] then [] else chunks[0] + Flatten(chunks[1..])
  }

  /** Every chunk holds between 1 and `size` elements, and every chunk but the
      last holds exactly `size`. */
  predicate WellChunked<T>(chunks: seq<seq<T>>, size: nat)
  {
    (forall i :: 0 <= i < |chunks| ==> 1 <= |chunks[i]| <= size)
    && (forall i :: 0 <= i < |chunks| - 1 ==> |chunks[i]| == size)
  }

  /** The number of chunks expected for `n` elements: the ceiling of `n / size`. */
  function CeilDiv(n: nat, size: nat): nat
    requires size > 0
  {
    (n + size - 1) / size
  }

  /** The chunks as a recursive definition: the first `size` elements, then the
      chunks of the rest. */
  function Chunks<T>(xs: seq<T>, size: nat): seq<seq<T>>
    decreases |xs|
  {
    if size == 0 || xs == [] then []
    else if |xs| <= size then [xs]
    else [xs[..size]] + Chunks(xs[size..], size)
  }

  /** The generator, run to the end: each pass slices off up to `size` of the
      remaining elements and stops at the first empty slice. */
  method ChunkedIterable<T>(xs: seq<T>, size: int) returns (r: Result<seq<seq<T>>, ChunkError>)
    ensures r.Failure? <==> size < 0 || size > MAX_SIZE
    ensures r.Failure? ==> (r.error == NegativeSize <==> size < 0)
    ensures r.Success? ==> r.value == Chunks(xs, size)
    ensures r.Success? ==> WellChunked(r.value, size)
    ensures r.Success? && size > 0 ==> Flatten(r.value) == xs
    ensures r.Success? && size > 0 ==> |r.value| == CeilDiv(|xs|, size)
    ensures r.Success? && (size == 0 || xs == []) ==> r.value == []
  {
    if size < 0 {
      return Failure(NegativeSize);
    }
    if size > MAX_SIZE {
      return Failure(SizeTooLarge);
    }
    var chunks: seq<seq<T>> := [];
    var pos := 0;
    while true
      invariant 0 <= pos <= |xs|
      invariant Chunks(xs, size) == chunks + Chunks(xs[pos..], size)
      decreases |xs| - pos
    {
      var end := if pos + size <= |xs| then pos + size else |xs|;
      var chunk := xs[pos..end];
      if chunk == [] {
        break;
      }
      ChunksStep(xs[pos..], size);
      assert xs[pos..][..|chunk|] == chunk;
      assert xs[pos..][|chunk|..] == xs[end..];
      chunks := chunks + [chunk];
      pos := end;
    }
    assert pos == |xs| || size == 0;
    assert Chunks(xs[pos..], size) == [];
    assert chunks == Chunks(xs, size);
    ChunksWellChunked(xs, size);
    if size > 0 {
      ChunksFlatten(xs, size);
      ChunksCount(xs, size);
    }
    return Success(chunks);
  }

  /** One pass of the generator: a non-empty slice of `min(size, |xs|)`
      elements comes first, and the chunks of what is left follow. */
  lemma ChunksStep<T>(xs: seq<T>, size: nat)
    requires size > 0 && xs != []
    ensures var n := if size <= |xs| then size else |xs|;
      Chunks(xs, size) == [xs[..n]] + Chunks(xs[n..], size)
  {
    if |xs| <= size {
      assert xs[..|xs|] == xs;
      assert xs[|xs|..] == [];
    }
  }

  /** Laying the chunks end to end gives back the input. */
  lemma {:induction false} ChunksFlatten<T>(xs: seq<T>, size: nat)
    requires size > 0
    ensures Flatten(Chunks(xs, size)) == xs
    decreases |xs|
  {
    if xs == [] {
    } else if |xs| <= size {
      assert Flatten([xs]) == xs + Flatten([]);
    } else {
      var rest := Chunks(xs[size..], size);
      ChunksFlatten(xs[size..], size);
      assert ([xs[..size]] + rest)[1..] == rest;
      assert Flatten([xs[..size]] + rest) == xs[..size] + Flatten(rest);
      assert xs == xs[..size] + xs[size..];
    }
  }

  /** No chunk is empty or longer than `size`, and only the last may be short. */
  lemma {:induction false} ChunksWellChunked<T>(xs: seq<T>, size: nat)
    ensures WellChunked(Chunks(xs, size), size)
    decreases |xs|
  {
    if size == 0 || xs == [] || |xs| <= size {
    } else {
      var rest := Chunks(xs[size..], size);
      ChunksWellChunked(xs[size..], size);
      ChunksNonEmptyInput(xs[size..], size);
      var cs := [xs[..size]] + rest;
      forall i | 0 <= i < |cs|
        ensures 1 <= |cs[i]| <= size
        ensures i < |cs| - 1 ==> |cs[i]| == size
      {
        if i > 0 {
          assert cs[i] == rest[i - 1];
        }
      }
    }
  }

  /** A non-empty input with a positive size gives at least one chunk. */
  lemma ChunksNonEmptyInput<T>(xs: seq<T>, size: nat)
    ensures Chunks(xs, size) == [] <==> size == 0 || xs == []
  {
  }

  /** Integer division is determined by the bounds it must satisfy. */
  lemma DivUnique(a: nat, d: nat, q: nat)
    requires d > 0 && q * d <= a < q * d + d
    ensures a / d == q
  {
    var q', r := a / d, a % d;
    assert a == q' * d + r && 0 <= r < d;
    if q' > q {
      MulMono(q + 1, q', d);
      assert false;
    } else if q' < q {
      MulMono(q' + 1, q, d);
      assert false;
    }
  }

  /** Multiplying by the same factor keeps the order. */
  lemma MulMono(x: nat, y: nat, d: nat)
    requires x <= y
    ensures x * d <= y * d && (x + 1) * d == x * d + d
  {
    assert y * d == x * d + (y - x) * d;
  }

  lemma DivStep(n: nat, size: nat)
    requires size > 0 && n > size
    ensures CeilDiv(n, size) == 1 + CeilDiv(n - size, size)
  {
    var a := n - 1 - size;
    var q, r := a / size, a % size;
    assert a == q * size + r && 0 <= r < size;
    assert (q + 1) * size == q * size + size;
    assert (q + 2) * size == q * size + size + size;
    DivUnique(n - size + size - 1, size, q + 1);
    DivUnique(n + size - 1, size, q + 2);
  }

  /** For a positive size the number of chunks is the ceiling of `|xs| / size`. */
  lemma {:induction false} ChunksCount<T>(xs: seq<T>, size: nat)
    requires size > 0
    ensures |Chunks(xs, size)| == CeilDiv(|xs|, size)
    decreases |xs|
  {
    if xs == [] {
      assert CeilDiv(0, size) == (size - 1) / size == 0;
    } else if |xs| <= size {
      assert size <= |xs| + size - 1 < 2 * size;
      assert CeilDiv(|xs|, size) == 1;
    } else {
      ChunksCount(xs[size..], size);
      DivStep(|xs|, size);
    }
  }

  /** The shape determines the chunks: any split of `xs` into well-formed
      chunks is the one the generator produces. */
  lemma {:induction false} ChunksUnique<T>(xs: seq<T>, size: nat, cs: seq<seq<T>>)
    requires size > 0
    requires Flatten(cs) == xs && WellChunked(cs, size)
    ensures cs == Chunks(xs, size)
    decreases |cs|
  {
    if cs == [] {
    } else if |cs| == 1 {
      assert cs[1..] == [];
      assert Flatten(cs) == cs[0] + Flatten([]);
      assert cs == [cs[0]];
      assert cs[0] == xs && 1 <= |xs| <= size;
    } else {
      var rest := cs[1..];
      assert |cs[0]| == size;
      assert xs == cs[0] + Flatten(rest);
      assert xs[..size] == cs[0] && xs[size..] == Flatten(rest);
      assert WellChunked(rest, size) by {
        forall i | 0 <= i < |rest|
          ensures 1 <= |rest[i]| <= size
          ensures i < |rest| - 1 ==> |rest[i]| == size
        {
          assert rest[i] == cs[i + 1];
        }
      }
      assert |Flatten(rest)| >= |rest[0]| by {
        assert Flatten(rest) == rest[0] + Flatten(rest[1..]);
      }
      assert |xs| > size;
      ChunksUnique(xs[size..], size, rest);
      assert cs == [cs[0]] + rest;
    }
  }

  /** Zero-sized chunks: `islice(it, 0)` is empty at once, so nothing is yielded. */
  lemma ZeroSizeYieldsNothing<T>(xs: seq<T>)
    ensures Chunks(xs, 0) == []
  {
  }

  /** A worked case: five elements in chunks of two. */
  lemma ExampleFiveByTwo()
    ensures Chunks([1, 2, 3, 4, 5], 2) == [[1, 2], [3, 4], [5]]
  {
    var xs := [1, 2, 3, 4, 5];
    assert xs[..2] == [1, 2] && xs[2..] == [3, 4, 5];
    assert xs[2..][..2] == [3, 4] && xs[2..][2..] == [5];
  }
}

=== FILE: decimal.dfy ===
/** Python's `str` on integers (an optional `-`, then decimal digits with no
    leading zero) together with the parser that reads such text back. */
module Decimal {
  import opened Base

  predicate IsDigit(ch: char)
  {
    '0' <= ch <= '9'
  }

  predicate AllDigits(s: string)
  {
    forall k :: 0 <= k < |s| ==> IsDigit(s[k])
  }

  function DigitChar(d: nat): (ch: char)
    requires d < 10
    ensures IsDigit(ch)
  {
    ('0' as int + d) as char
  }

  function DigitValue(ch: char): (d: nat)
    requires IsDigit(ch)
    ensures d < 10
  {
    ch as int - '0' as int
  }

  /** The number a run of decimal digits denotes (most significant first). */
  function DigitsValue(s: string): nat
    requires AllDigits(s)
  {
    if |s| == 0 then 0
    else DigitsValue(s[..|s| - 1]) * 10 + DigitValue(s[|s| - 1])
  }

  /** The decimal digits of `n`: at least one digit, no leading zero, and
      reading them back gives `n`. */
  function NatDigits(n: nat): (s: string)
    ensures |s| >= 1 && AllDigits(s)
    ensures s[0] != '0' || n == 0
    ensures DigitsValue(s) == n
  {
    if n < 10 then [DigitChar(n)]
    else
      var s := NatDigits(n / 10) + [DigitChar(n % 10)];
      assert s[..|s| - 1] == NatDigits(n / 10);
      s
  }

  /** Python's `str(i)` for an integer `i`. */
  function IntToString(i: int): (s: string)
    ensures |s| >= 1
    ensures forall k :: 0 <= k < |s| ==> IsDigit(s[k]) || (k == 0 && s[k] == '-')
    ensures ParseInt(s) == Some(i)
  {
    if i < 0 then
      var s := "-" + NatDigits(-i);
      assert s[1..] == NatDigits(-i);
      s
    else NatDigits(i)
  }

  /** Reads an optional `-` and a non-empty run of digits; anything else is `None`. */
  function ParseInt(s: string): Option<int>
  {
    if |s| >= 2 && s[0] == '-' && AllDigits(s[1..]) then Option<int>.Some(0 - DigitsValue(s[1..]))
    else if |s| >= 1 && AllDigits(s) then Some(DigitsValue(s))
    else None
  }
}

=== FILE: dir_listing.dfy ===
/** `list_directory` and `_filename_without_prefix`
    (pyneed/utils/io.py): per directory, the files sorted by the part of
    their name after the first `_`, then hidden names dropped, files before
    sub-directories, everything joined to the directory's path. */
module DirListing {
  import opened Base
  import opened Strings

  // ------------------------------------------------------------ sort key

  /** `_filename_without_prefix`: `"_".join(file.split("_")[1:])`. */
  function FilenameWithoutPrefix(file: string): (r: string)
    ensures '_' !in file ==> r == ""
  {
    Join("_", Split(file, '_')[1..])
  }

  /** A name with a `_` has as key exactly what follows its first `_`, later
      underscores included. */
  lemma KeyAfterFirstUnderscore(file: string)
    requires '_' in file
    ensures FilenameWithoutPrefix(file) == file[FirstIndex(file, '_') + 1..]
  {
    var i := FirstIndex(file, '_');
    var rest := Split(file[i + 1..], '_');
    assert Split(file, '_') == [file[..i]] + rest;
    assert Split(file, '_')[1..] == rest;
    SplitJoinBack(file[i + 1..], '_');
    assert "_" == ['_'];
  }

  /** Putting any `_`-free prefix and a `_` in front of a name makes that
      name the key: the key undoes the prefixing. */
  lemma KeyOfPrefixed(prefix: string, name: string)
    requires '_' !in prefix
    ensures FilenameWithoutPrefix(prefix + "_" + name) == name
  {
    var file := prefix + "_" + name;
    assert file == prefix + ['_'] + name;
    FirstIndexAfter(prefix, '_', name);
    KeyAfterFirstUnderscore(file);
    assert file[|prefix| + 1..] == name;
  }

  // -------------------------------------------------------- string order

  /** Python's `<=` on `str`: lexicographic by code point, a prefix first. */
  predicate StrLe(a: string, b: string)
  {
    if a == [] then true
    else if b == [] then false
    else if a[0] != b[0] then a[0] < b[0]
    else StrLe(a[1..], b[1..])
  }

  lemma StrLeRefl(a: string)
    ensures StrLe(a, a)
  {
  }

  lemma {:induction false} StrLeTotal(a: string, b: string)
    ensures StrLe(a, b) || StrLe(b, a)
    decreases |a|
  {
    if a != [] && b != [] && a[0] == b[0] {
      StrLeTotal(a[1..], b[1..]);
    }
  }

  lemma {:induction false} StrLeTrans(a: string, b: string, c: string)
    requires StrLe(a, b) && StrLe(b, c)
    ensures StrLe(a, c)
    decreases |a|
  {
    if a != [] && b != [] && c != [] && a[0] == b[0] && b[0] == c[0] {
      StrLeTrans(a[1..], b[1..], c[1..]);
    }
  }

  lemma {:induction false} StrLeAntisym(a: string, b: string)
    requires StrLe(a, b) && StrLe(b, a)
    ensures a == b
    decreases |a|
  {
    if a != [] {
      StrLeAntisym(a[1..], b[1..]);
      assert a == [a[0]] + a[1..] && b == [b[0]] + b[1..];
    }
  }

  // ---------------------------------------------------------- stable sort

  lemma ConcatAssoc<T>(h: seq<T>, x: seq<T>, y: seq<T>)
    ensures h + (x + y) == (h + x) + y
  {
  }

  /** The sort key of a file name. */
  function Key(file: string): string
  {
    FilenameWithoutPrefix(file)
  }

  /** A name paired with its key; `sorted(..., key=...)` computes each key
      once and sorts the pairs by key. */
  datatype Keyed = Keyed(key: string, name: string)

  function Decorate(names: seq<string>): (r: seq<Keyed>)
    ensures |r| == |names|
    ensures forall i :: 0 <= i < |r| ==> r[i] == Keyed(Key(names[i]), names[i])
  {
    if names == [] then [] else [Keyed(Key(names[0]), names[0])] + Decorate(names[1..])
  }

  function NamesOf(ks: seq<Keyed>): (r: seq<string>)
    ensures |r| == |ks|
    ensures forall i :: 0 <= i < |r| ==> r[i] == ks[i].name
  {
    if ks == [] then [] else [ks[0].name] + NamesOf(ks[1..])
  }

  /** Ordered non-decreasingly by key. */
  predicate Sorted(ks: seq<Keyed>)
  {
    forall i, j :: 0 <= i < j < |ks| ==> StrLe(ks[i].key, ks[j].key)
  }

  /** The entries whose key is `k`, in their order. */
  function WithKey(ks: seq<Keyed>, k: string): (r: seq<Keyed>)
    ensures |r| <= |ks|
  {
    if ks == [] then []
    else (if ks[0].key == k then [ks[0]] else []) + WithKey(ks[1..], k)
  }

  /** Places `x` before the first entry whose key is not smaller than its own. */
  function Insert(x: Keyed, t: seq<Keyed>): (r: seq<Keyed>)
    ensures multiset(r) == multiset(t) + multiset{x}
  {
    if t == [] || StrLe(x.key, t[0].key) then [x] + t
    else
      assert t == [t[0]] + t[1..];
      [t[0]] + Insert(x, t[1..])
  }

  /** A stable sort of the entries by key. */
  function Sort(ks: seq<Keyed>): (r: seq<Keyed>)
    ensures multiset(r) == multiset(ks)
  {
    if ks == [] then []
    else
      assert ks == [ks[0]] + ks[1..];
      Insert(ks[0], Sort(ks[1..]))
  }

  /** `sorted(files, key=_filename_without_prefix)`. */
  function SortByKey(files: seq<string>): (r: seq<string>)
    ensures |r| == |files|
    ensures multiset(r) == multiset(files)
    ensures forall i, j :: 0 <= i < j < |r| ==> StrLe(Key(r[i]), Key(r[j]))
  {
    var d := Decorate(files);
    var sorted := Sort(d);
    assert |sorted| == |multiset(sorted)| == |d|;
    SortSorted(d);
    KeysMatchDecorate(files);
    KeysMatchPermutation(d, sorted);
    NamesSort(d);
    NamesDecorate(files);
    NamesOf(sorted)
  }

  lemma {:induction false} SortedTail(t: seq<Keyed>)
    requires Sorted(t) && t != []
    ensures Sorted(t[1..])
  {
    forall i, j | 0 <= i < j < |t[1..]|
      ensures StrLe(t[1..][i].key, t[1..][j].key)
    {
      assert t[1..][i] == t[i + 1] && t[1..][j] == t[j + 1];
    }
  }

  /** Every entry of a sorted list has a key no smaller than its first. */
  lemma {:induction false} SortedHead(t: seq<Keyed>, y: Keyed)
    requires Sorted(t) && y in multiset(t)
    ensures StrLe(t[0].key, y.key)
  {
    var k :| 0 <= k < |t| && t[k] == y;
    if k == 0 {
      StrLeRefl(y.key);
    }
  }

  lemma {:induction false} InsertFrontSorted(x: Keyed, t: seq<Keyed>)
    requires Sorted(t) && (t == [] || StrLe(x.key, t[0].key))
    ensures Sorted([x] + t)
  {
    var r := [x] + t;
    forall i, j | 0 <= i < j < |r|
      ensures StrLe(r[i].key, r[j].key)
    {
      if i == 0 {
        assert r[j] == t[j - 1];
        if j > 1 {
          StrLeTrans(x.key, t[0].key, t[j - 1].key);
        }
      } else {
        assert r[i] == t[i - 1] && r[j] == t[j - 1];
      }
    }
  }

  lemma {:induction false} InsertSorted(x: Keyed, t: seq<Keyed>)
    requires Sorted(t)
    ensures Sorted(Insert(x, t))
    decreases |t|
  {
    if t == [] || StrLe(x.key, t[0].key) {
      InsertFrontSorted(x, t);
    } else {
      var rest := Insert(x, t[1..]);
      SortedTail(t);
      InsertSorted(x, t[1..]);
      if rest != [] {
        var y := rest[0];
        assert y in multiset(rest);
        if y == x {
          StrLeTotal(x.key, t[0].key);
        } else {
          assert y in multiset(t[1..]);
          assert t == [t[0]] + t[1..];
          SortedHead(t, y);
        }
      }
      InsertFrontSorted(t[0], rest);
    }
  }

  /** The sort orders its output by key. */
  lemma {:induction false} SortSorted(ks: seq<Keyed>)
    ensures Sorted(Sort(ks))
    decreases |ks|
  {
    if ks != [] {
      SortSorted(ks[1..]);
      InsertSorted(ks[0], Sort(ks[1..]));
    }
  }

  lemma {:induction false} WithKeyAppend(a: seq<Keyed>, b: seq<Keyed>, k: string)
    ensures WithKey(a + b, k) == WithKey(a, k) + WithKey(b, k)
    decreases |a|
  {
    if a == [] {
      assert a + b == b;
    } else {
      var h := if a[0].key == k then [a[0]] else [];
      var x, y := WithKey(a[1..], k), WithKey(b, k);
      assert (a + b)[1..] == a[1..] + b;
      WithKeyAppend(a[1..], b, k);
      assert WithKey(a + b, k) == h + (x + y);
      ConcatAssoc(h, x, y);
    }
  }

  /** Inserting `x` keeps the entries of every key in their order, with `x`
      first among those of its own key. */
  lemma {:induction false} InsertStable(x: Keyed, t: seq<Keyed>, k: string)
    ensures WithKey(Insert(x, t), k) == WithKey([x] + t, k)
    decreases |t|
  {
    if t == [] || StrLe(x.key, t[0].key) {
    } else {
      InsertStable(x, t[1..], k);
      StrLeRefl(x.key);
      assert t[0].key != x.key;
      WithKeyAppend([t[0]], Insert(x, t[1..]), k);
      WithKeyAppend([x], t[1..], k);
      WithKeyAppend([x], t, k);
      WithKeyAppend([t[0]], t[1..], k);
      assert t == [t[0]] + t[1..];
      assert WithKey([t[0]], k) == [] || WithKey([x], k) == [];
    }
  }

  /** Stability: for every key, the entries with that key keep their input order. */
  lemma {:induction false} SortStable(ks: seq<Keyed>, k: string)
    ensures WithKey(Sort(ks), k) == WithKey(ks, k)
    decreases |ks|
  {
    if ks != [] {
      SortStable(ks[1..], k);
      InsertStable(ks[0], Sort(ks[1..]), k);
      WithKeyAppend([ks[0]], Sort(ks[1..]), k);
      WithKeyAppend([ks[0]], ks[1..], k);
      assert ks == [ks[0]] + ks[1..];
    }
  }

  // ------------------------------------------------------- hidden filter

  /** `x.startswith(".")`. */
  predicate Hidden(name: string)
  {
    |name| > 0 && name[0] == '.'
  }

  /** `filter(lambda x: not x.startswith("."), names)`. */
  function KeepVisible(names: seq<string>): (r: seq<string>)
    ensures |r| <= |names|
  {
    if names == [] then []
    else (if Hidden(names[0]) then [] else [names[0]]) + KeepVisible(names[1..])
  }

  /** The same filter on entries, by name. */
  function KeepVisibleKeyed(ks: seq<Keyed>): (r: seq<Keyed>)
    ensures |r| <= |ks|
  {
    if ks == [] then []
    else (if Hidden(ks[0].name) then [] else [ks[0]]) + KeepVisibleKeyed(ks[1..])
  }

  /** A name survives the filter exactly when it is present and not hidden. */
  lemma {:induction false} KeepVisibleMembers(names: seq<string>, x: string)
    ensures x in KeepVisible(names) <==> x in names && !Hidden(x)
    decreases |names|
  {
    if names != [] {
      KeepVisibleMembers(names[1..], x);
      assert names == [names[0]] + names[1..];
    }
  }

  lemma {:induction false} KeepVisibleKeyedMembers(ks: seq<Keyed>, x: Keyed)
    ensures x in multiset(KeepVisibleKeyed(ks)) ==> x in multiset(ks)
    decreases |ks|
  {
    if ks != [] {
      KeepVisibleKeyedMembers(ks[1..], x);
      assert ks == [ks[0]] + ks[1..];
    }
  }

  lemma {:induction false} KeepVisibleKeyedAppend(a: seq<Keyed>, b: seq<Keyed>)
    ensures KeepVisibleKeyed(a + b) == KeepVisibleKeyed(a) + KeepVisibleKeyed(b)
    decreases |a|
  {
    if a == [] {
      assert a + b == b;
    } else {
      var h := if Hidden(a[0].name) then [] else [a[0]];
      var x, y := KeepVisibleKeyed(a[1..]), KeepVisibleKeyed(b);
      assert (a + b)[1..] == a[1..] + b;
      KeepVisibleKeyedAppend(a[1..], b);
      assert KeepVisibleKeyed(a + b) == h + (x + y);
      ConcatAssoc(h, x, y);
    }
  }

  /** The filter on names and the filter on entries agree. */
  lemma {:induction false} KeepVisibleNames(ks: seq<Keyed>)
    ensures KeepVisible(NamesOf(ks)) == NamesOf(KeepVisibleKeyed(ks))
    decreases |ks|
  {
    if ks != [] {
      KeepVisibleNames(ks[1..]);
      assert NamesOf(ks)[1..] == NamesOf(ks[1..]);
    }
  }

  lemma {:induction false} KeepVisibleDecorate(names: seq<string>)
    ensures KeepVisibleKeyed(Decorate(names)) == Decorate(KeepVisible(names))
    decreases |names|
  {
    if names != [] {
      KeepVisibleDecorate(names[1..]);
      assert Decorate(names)[1..] == Decorate(names[1..]);
    }
  }

  /** In front of a sorted list, an entry that may go before the first may go
      before every visible one. */
  lemma {:induction false} InsertFront(x: Keyed, t: seq<Keyed>)
    requires Sorted(t) && t != [] && StrLe(x.key, t[0].key)
    ensures Insert(x, KeepVisibleKeyed(t)) == [x] + KeepVisibleKeyed(t)
  {
    var v := KeepVisibleKeyed(t);
    if v != [] {
      assert v[0] in multiset(v);
      KeepVisibleKeyedMembers(t, v[0]);
      SortedHead(t, v[0]);
      StrLeTrans(x.key, t[0].key, v[0].key);
    }
  }

  /** Dropping hidden names after inserting is inserting after dropping. */
  lemma {:induction false} KeepVisibleInsert(x: Keyed, t: seq<Keyed>)
    requires Sorted(t)
    ensures Hidden(x.name) ==> KeepVisibleKeyed(Insert(x, t)) == KeepVisibleKeyed(t)
    ensures !Hidden(x.name) ==> KeepVisibleKeyed(Insert(x, t)) == Insert(x, KeepVisibleKeyed(t))
    decreases |t|
  {
    if t == [] || StrLe(x.key, t[0].key) {
      KeepVisibleKeyedAppend([x], t);
      if t != [] && !Hidden(x.name) {
        InsertFront(x, t);
      }
    } else {
      var t' := t[1..];
      var h := KeepVisibleKeyed([t[0]]);
      SortedTail(t);
      KeepVisibleInsert(x, t');
      assert Insert(x, t) == [t[0]] + Insert(x, t');
      KeepVisibleKeyedAppend([t[0]], Insert(x, t'));
      assert t == [t[0]] + t';
      KeepVisibleKeyedAppend([t[0]], t');
      var v := KeepVisibleKeyed(t');
      if Hidden(t[0].name) {
        assert h == [];
        assert h + v == v && h + KeepVisibleKeyed(Insert(x, t')) == KeepVisibleKeyed(Insert(x, t'));
      } else if !Hidden(x.name) {
        assert h == [t[0]];
        assert ([t[0]] + v)[0] == t[0] && ([t[0]] + v)[1..] == v;
        assert Insert(x, [t[0]] + v) == [t[0]] + Insert(x, v);
      }
    }
  }

  /** Sorting and then dropping hidden entries is the same as sorting only the
      visible ones. */
  lemma {:induction false} KeepVisibleSort(ks: seq<Keyed>)
    ensures KeepVisibleKeyed(Sort(ks)) == Sort(KeepVisibleKeyed(ks))
    decreases |ks|
  {
    if ks != [] {
      var rest := Sort(ks[1..]);
      var v := KeepVisibleKeyed(ks[1..]);
      assert Sort(ks) == Insert(ks[0], rest);
      KeepVisibleSort(ks[1..]);
      SortSorted(ks[1..]);
      KeepVisibleInsert(ks[0], rest);
      assert ks == [ks[0]] + ks[1..];
      KeepVisibleKeyedAppend([ks[0]], ks[1..]);
      if Hidden(ks[0].name) {
        assert KeepVisibleKeyed([ks[0]]) == [];
        assert KeepVisibleKeyed(ks) == v;
      } else {
        assert KeepVisibleKeyed([ks[0]]) == [ks[0]];
        assert KeepVisibleKeyed(ks) == [ks[0]] + v;
        assert ([ks[0]] + v)[0] == ks[0] && ([ks[0]] + v)[1..] == v;
        assert Sort([ks[0]] + v) == Insert(ks[0], Sort(v));
      }
    }
  }

  /** What `list_directory` keeps of a directory's files, in order: sorting
      all names and then dropping hidden ones gives the visible names sorted. */
  lemma VisibleFilesSorted(files: seq<string>)
    ensures KeepVisible(SortByKey(files)) == SortByKey(KeepVisible(files))
  {
    KeepVisibleNames(Sort(Decorate(files)));
    KeepVisibleSort(Decorate(files));
    KeepVisibleDecorate(files);
  }

  // ------------------------------------------------- one directory's step

  /** A path as its sequence of components; `Path(base) / f` adds one. */
  type Path = seq<string>

  /** Every name joined to `base`, in order. */
  function JoinAll(base: Path, names: seq<string>): (r: seq<Path>)
    ensures |r| == |names|
    ensures forall i :: 0 <= i < |r| ==> r[i] == base + [names[i]]
  {
    if names == [] then [] else [base + [names[0]]] + JoinAll(base, names[1..])
  }

  /** The body of the loop over `os.walk` for one `(base, dirs, files)`: what
      it appends to the results. */
  function DirStep(base: Path, dirs: seq<string>, files: seq<string>): (r: seq<Path>)
    ensures forall i :: 0 <= i < |r| ==> |r[i]| == |base| + 1 && r[i][..|base|] == base
  {
    JoinAll(base, KeepVisible(SortByKey(files))) + JoinAll(base, KeepVisible(dirs))
  }

  /** The step lists the visible files, sorted by key, and then the visible
      directories in walk order, all under `base`. */
  lemma DirStepShape(base: Path, dirs: seq<string>, files: seq<string>)
    ensures var out := DirStep(base, dirs, files);
      var n := |KeepVisible(files)|;
      && |out| == |KeepVisible(files)| + |KeepVisible(dirs)|
      && out[..n] == JoinAll(base, SortByKey(KeepVisible(files)))
      && out[n..] == JoinAll(base, KeepVisible(dirs))
  {
    VisibleFilesSorted(files);
    var a := JoinAll(base, SortByKey(KeepVisible(files)));
    var out := a + JoinAll(base, KeepVisible(dirs));
    assert out[..|a|] == a;
  }

  /** Nothing the step lists has a hidden name, and everything sits directly
      under `base`. */
  lemma DirStepNoHidden(base: Path, dirs: seq<string>, files: seq<string>)
    ensures forall p :: p in DirStep(base, dirs, files) ==>
      |p| == |base| + 1 && p[..|base|] == base && !Hidden(p[|base|])
  {
    var v := KeepVisible(SortByKey(files));
    var w := KeepVisible(dirs);
    var a := JoinAll(base, v);
    var b := JoinAll(base, w);
    forall p | p in a + b
      ensures |p| == |base| + 1 && p[..|base|] == base && !Hidden(p[|base|])
    {
      if p in a {
        var i :| 0 <= i < |a| && a[i] == p;
        KeepVisibleMembers(SortByKey(files), v[i]);
        assert p[|base|] == v[i];
      } else {
        var i :| 0 <= i < |b| && b[i] == p;
        KeepVisibleMembers(dirs, w[i]);
        assert p[|base|] == w[i];
      }
    }
  }

  /** Every entry carries the key of its own name. */
  predicate KeysMatch(ks: seq<Keyed>)
  {
    forall i :: 0 <= i < |ks| ==> ks[i].key == Key(ks[i].name)
  }

  lemma {:induction false} KeysMatchPermutation(a: seq<Keyed>, b: seq<Keyed>)
    requires KeysMatch(a) && multiset(a) == multiset(b)
    ensures KeysMatch(b)
  {
    forall i | 0 <= i < |b|
      ensures b[i].key == Key(b[i].name)
    {
      assert b[i] in multiset(a);
      var j :| 0 <= j < |a| && a[j] == b[i];
    }
  }

  lemma {:induction false} NamesInsert(x: Keyed, t: seq<Keyed>)
    ensures multiset(NamesOf(Insert(x, t))) == multiset(NamesOf(t)) + multiset{x.name}
    decreases |t|
  {
    if t == [] || StrLe(x.key, t[0].key) {
      assert NamesOf([x] + t) == [x.name] + NamesOf(t);
    } else {
      NamesInsert(x, t[1..]);
      assert NamesOf([t[0]] + Insert(x, t[1..])) == [t[0].name] + NamesOf(Insert(x, t[1..]));
      assert NamesOf(t) == [t[0].name] + NamesOf(t[1..]);
    }
  }

  /** Sorting rearranges the names and nothing else. */
  lemma {:induction false} NamesSort(ks: seq<Keyed>)
    ensures multiset(NamesOf(Sort(ks))) == multiset(NamesOf(ks))
    decreases |ks|
  {
    if ks != [] {
      NamesSort(ks[1..]);
      NamesInsert(ks[0], Sort(ks[1..]));
      assert NamesOf(ks) == [ks[0].name] + NamesOf(ks[1..]);
    }
  }

  lemma NamesDecorate(names: seq<string>)
    ensures NamesOf(Decorate(names)) == names
  {
  }

  lemma KeysMatchDecorate(names: seq<string>)
    ensures KeysMatch(Decorate(names))
  {
  }

  /** The files the step lists are ordered non-decreasingly by
      `_filename_without_prefix`, and are the visible files rearranged. */
  lemma DirStepFilesOrdered(files: seq<string>)
    ensures var v := KeepVisible(SortByKey(files));
      && multiset(v) == multiset(KeepVisible(files))
      && forall i, j :: 0 <= i < j < |v| ==> StrLe(Key(v[i]), Key(v[j]))
  {
    VisibleFilesSorted(files);
    var d := Decorate(KeepVisible(files));
    var s := Sort(d);
    var v := NamesOf(s);
    assert KeepVisible(SortByKey(files)) == v;
    SortSorted(d);
    KeysMatchDecorate(KeepVisible(files));
    KeysMatchPermutation(d, s);
    NamesSort(d);
    NamesDecorate(KeepVisible(files));
    forall i, j | 0 <= i < j < |v|
      ensures StrLe(Key(v[i]), Key(v[j]))
    {
      assert v[i] == s[i].name && v[j] == s[j].name;
      assert s[i].key == Key(v[i]) && s[j].key == Key(v[j]);
    }
  }

  /** Among the files the step lists, those with the same key keep the order
      they were listed in: the sort is stable. */
  lemma DirStepFilesStable(files: seq<string>, k: string)
    ensures var v := Sort(Decorate(KeepVisible(files)));
      && NamesOf(v) == KeepVisible(SortByKey(files))
      && WithKey(v, k) == WithKey(Decorate(KeepVisible(files)), k)
  {
    VisibleFilesSorted(files);
    SortStable(Decorate(KeepVisible(files)), k);
  }

  // ---------------------------------------------------------- whole walk

  /** A directory as the walk sees it: its file names and its
      sub-directories, each with its own name, in listing order. */
  datatype Tree = Dir(name: string, files: seq<string>, subdirs: seq<Tree>)

  function Names(ts: seq<Tree>): (r: seq<string>)
    ensures |r| == |ts|
    ensures forall i :: 0 <= i < |ts| ==> r[i] == ts[i].name
  {
    if ts == [] then [] else [ts[0].name] + Names(ts[1..])
  }

  /** `p` lies strictly under `base`. */
  predicate Under(p: Path, base: Path)
  {
    |p| > |base| && p[..|base|] == base
  }

  /** The results of `list_directory` for a directory at `base`: a top-down
      walk that descends into every sub-directory, hidden or not. */
  function Walk(base: Path, t: Tree): (r: seq<Path>)
    ensures forall i :: 0 <= i < |r| ==> Under(r[i], base)
    decreases t, 1
  {
    DirStep(base, Names(t.subdirs), t.files) + WalkAll(base, t.subdirs)
  }

  /** Paths under a sub-directory of `base`, then paths under `base`, all lie under `base`. */
  lemma UnderBoth(a: seq<Path>, b: seq<Path>, sb: Path, base: Path)
    requires |sb| == |base| + 1 && sb[..|base|] == base
    requires forall i :: 0 <= i < |a| ==> Under(a[i], sb)
    requires forall i :: 0 <= i < |b| ==> Under(b[i], base)
    ensures forall i :: 0 <= i < |a + b| ==> Under((a + b)[i], base)
  {
    forall i | 0 <= i < |a + b|
      ensures Under((a + b)[i], base)
    {
      if i < |a| {
        assert (a + b)[i] == a[i];
        assert a[i][..|base|] == a[i][..|sb|][..|base|];
      } else {
        assert (a + b)[i] == b[i - |a|];
      }
    }
  }

  /** The walks of the sub-directories `ts` of `base`, one after another. */
  function WalkAll(base: Path, ts: seq<Tree>): (r: seq<Path>)
    ensures forall i :: 0 <= i < |r| ==> Under(r[i], base)
    decreases ts, 0
  {
    if ts == [] then []
    else
      var sb := base + [ts[0].name];
      var w := Walk(sb, ts[0]);
      var rest := WalkAll(base, ts[1..]);
      UnderBoth(w, rest, sb, base);
      w + rest
  }

  /** Sub-directory indices that lead from `t` down to one of its directories. */
  predicate Reaches(t: Tree, idx: seq<nat>)
    decreases |idx|
  {
    idx == [] || (idx[0] < |t.subdirs| && Reaches(t.subdirs[idx[0]], idx[1..]))
  }

  /** The directory `idx` leads to, and its path when `t` is walked from `base`. */
  function DirAt(base: Path, t: Tree, idx: seq<nat>): (Path, Tree)
    requires Reaches(t, idx)
    decreases |idx|
  {
    if idx == [] then (base, t)
    else DirAt(base + [t.subdirs[idx[0]].name], t.subdirs[idx[0]], idx[1..])
  }

  /** A visible file of any directory in the tree, however deep and under
      however many hidden directories, is listed: hidden directories are left
      out of the results but still walked. */
  lemma {:induction false} HiddenDirNotPruned(base: Path, t: Tree, idx: seq<nat>, f: string)
    requires Reaches(t, idx)
    requires f in DirAt(base, t, idx).1.files && !Hidden(f)
    ensures DirAt(base, t, idx).0 + [f] in Walk(base, t)
    decreases |idx|
  {
    if idx == [] {
      StepListsVisibleFile(base, Names(t.subdirs), t.files, f);
    } else {
      var sub := t.subdirs[idx[0]];
      HiddenDirNotPruned(base + [sub.name], sub, idx[1..], f);
      WalkAllHas(base, t.subdirs, idx[0], DirAt(base, t, idx).0 + [f]);
    }
  }

  /** Likewise a visible directory at any depth is listed, hidden parents or not. */
  lemma {:induction false} VisibleDirListed(base: Path, t: Tree, idx: seq<nat>)
    requires Reaches(t, idx) && idx != []
    requires !Hidden(DirAt(base, t, idx).1.name)
    ensures DirAt(base, t, idx).0 in Walk(base, t)
    decreases |idx|
  {
    var sub := t.subdirs[idx[0]];
    if |idx| == 1 {
      assert DirAt(base + [sub.name], sub, idx[1..]) == (base + [sub.name], sub);
      assert Names(t.subdirs)[idx[0]] == sub.name;
      StepListsVisibleDir(base, Names(t.subdirs), t.files, sub.name);
    } else {
      VisibleDirListed(base + [sub.name], sub, idx[1..]);
      WalkAllHas(base, t.subdirs, idx[0], DirAt(base, t, idx).0);
    }
  }

  lemma StepListsVisibleDir(base: Path, dirs: seq<string>, files: seq<string>, d: string)
    requires d in dirs && !Hidden(d)
    ensures base + [d] in DirStep(base, dirs, files)
  {
    KeepVisibleMembers(dirs, d);
    var w := KeepVisible(dirs);
    var j :| 0 <= j < |w| && w[j] == d;
    assert JoinAll(base, w)[j] == base + [d];
  }

  lemma {:induction false} StepListsVisibleFile(base: Path, dirs: seq<string>, files: seq<string>, f: string)
    requires f in files && !Hidden(f)
    ensures base + [f] in DirStep(base, dirs, files)
  {
    KeepVisibleMembers(files, f);
    DirStepFilesOrdered(files);
    var v := KeepVisible(SortByKey(files));
    assert f in multiset(v);
    var j :| 0 <= j < |v| && v[j] == f;
    assert JoinAll(base, v)[j] == base + [f];
  }

  lemma {:induction false} WalkAllHas(base: Path, ts: seq<Tree>, i: nat, p: Path)
    requires i < |ts| && p in Walk(base + [ts[i].name], ts[i])
    ensures p in WalkAll(base, ts)
    decreases i
  {
    var head := Walk(base + [ts[0].name], ts[0]);
    var rest := WalkAll(base, ts[1..]);
    WalkAllUnfold(base, ts);
    if i == 0 {
      InLeft(head, rest, p);
    } else {
      assert ts[1..][i - 1] == ts[i];
      WalkAllHas(base, ts[1..], i - 1, p);
      InRight(head, rest, p);
    }
  }

  lemma InLeft<T>(a: seq<T>, b: seq<T>, x: T)
    requires x in a
    ensures x in a + b
  {
  }

  lemma InRight<T>(a: seq<T>, b: seq<T>, x: T)
    requires x in b
    ensures x in a + b
  {
  }

  lemma WalkAllUnfold(base: Path, ts: seq<Tree>)
    requires ts != []
    ensures WalkAll(base, ts) == Walk(base + [ts[0].name], ts[0]) + WalkAll(base, ts[1..])
  {
  }

  /** No path the walk lists ends in a hidden name. */
  lemma {:induction false} WalkNoHidden(base: Path, t: Tree, p: Path)
    requires p in Walk(base, t)
    ensures |p| > |base| && !Hidden(p[|p| - 1])
    decreases t, 1
  {
    DirStepNoHidden(base, Names(t.subdirs), t.files);
    if p !in DirStep(base, Names(t.subdirs), t.files) {
      WalkAllNoHidden(base, t.subdirs, p);
    }
  }

  lemma {:induction false} WalkAllNoHidden(base: Path, ts: seq<Tree>, p: Path)
    requires p in WalkAll(base, ts)
    ensures |p| > |base| && !Hidden(p[|p| - 1])
    decreases ts, 0
  {
    if p in Walk(base + [ts[0].name], ts[0]) {
      WalkNoHidden(base + [ts[0].name], ts[0], p);
    } else {
      WalkAllNoHidden(base, ts[1..], p);
    }
  }

  /** What `list_directory` finds at the path it is given: a regular file, a
      directory, or neither (nothing at all, a FIFO, a socket, a device, a
      broken symbolic link). */
  datatype Node = FileNode | DirNode(tree: Tree) | Neither

  /** `list_directory` raises `ValueError` for a path that is neither a file
      nor a directory. */
  datatype ListError = CouldNotLocate

  /** `list_directory(path)`: the path itself for a file, the walk for a
      directory, and an error otherwise. */
  function ListDirectory(path: Path, node: Node): (r: Result<seq<Path>, ListError>)
    ensures r.Failure? <==> node.Neither?
    ensures node.FileNode? ==> r == Success([path])
    ensures r.Success? ==> forall p :: p in r.value ==> |p| >= |path| && p[..|path|] == path
  {
    match node
    case FileNode => Success([path])
    case DirNode(t) => Success(Walk(path, t))
    case Neither => Failure(CouldNotLocate)
  }
}

=== FILE: pg_manager.dfy ===
/** The connection manager `PgManager` (pyneed/db/postgre.py): one connection,
    one cursor, and bounded retry around connecting and executing.

    The database driver is an oracle. Every attempt to connect or to execute a
    statement takes the next outcome from a script; the manager's visible
    effects (attempts, sleeps) are appended to a log. Sleeping is recorded, not
    performed. */
module PgManager {
  import opened Base
  import PgQuery

  /** How many times a failed connect or execute is retried. */
  const LIMIT_RETRIES: nat := 5
  /** Seconds slept before each connect retry. */
  const CONNECT_BACKOFF: nat := 5
  /** Seconds slept before each execute retry. */
  const EXECUTE_BACKOFF: nat := 1

  /** A fetched row with access by field name: `(column, value)` pairs in column order. */
  type Row = seq<(string, string)>

  /** The exception classes the retry logic tells apart. In the DB-API 2.0
      hierarchy (PEP 249, "Exceptions") `OperationalError`, `ProgrammingError`,
      `IntegrityError` and the rest are all `DatabaseError`s; `InterfaceError`
      and exceptions from outside the driver are not. */
  datatype Failure = OperationalError | OtherDatabaseError | NonDatabaseError

  predicate IsDatabaseError(f: Failure)
  {
    f.OperationalError? || f.OtherDatabaseError?
  }

  /** What the driver does on one attempt. */
  datatype Outcome = Succeeds(rows: seq<Row>) | Raises(failure: Failure)

  /** What an observer of the manager sees. */
  datatype Event = ConnectAttempt | Executed(query: string, outcome: Outcome) | Sleep(seconds: nat)

  /** The driver's outcomes still to come. Once the script is used up, every
      attempt succeeds with no rows. */
  type Script = seq<Outcome>

  function NextOutcome(script: Script): Outcome
  {
    if |script| == 0 then Succeeds([]) else script[0]
  }

  /** The script after one attempt has used up its outcome. */
  function Advance(script: Script): Script
  {
    if |script| == 0 then [] else script[1..]
  }

  datatype Connection = Connection(serial: nat)

  /** A cursor, the connection it belongs to, and the rows not yet fetched. */
  datatype Cursor = Cursor(connection: nat, closed: bool, pending: seq<Row>)

  /** The fields of a `PgManager`: `_connection`, `_cursor`, `reconnect`,
      `last_query`, and the number of connections opened so far (the serial
      the next connection gets). */
  datatype Manager = Manager(
    connection: Option<Connection>,
    cursor: Option<Cursor>,
    reconnect: bool,
    issued: nat,
    lastQuery: Option<string>)

  /** What a reachable manager satisfies: a cursor always belongs to the
      current connection, and every connection is one already opened. */
  predicate Valid(m: Manager)
  {
    && (m.connection.Some? ==> m.connection.value.serial < m.issued)
    && (m.cursor.Some? ==> m.connection.Some? && m.cursor.value.connection == m.connection.value.serial)
  }

  /** `fetchall()` or `fetchone()`. */
  datatype Fetched = All(rows: seq<Row>) | One(row: Option<Row>)

  /** The manager and the script after an operation, the events it produced,
      and what it returned or raised. */
  datatype Step<T> = Step(m: Manager, script: Script, events: seq<Event>, out: Result<T, Failure>)

  // ------------------------------------------------------------ connect

  /** `connect(retry_counter)`: nothing when a connection exists; otherwise
      attempt to open one, retrying an `OperationalError` after a sleep of
      `CONNECT_BACKOFF` while `reconnect` is set and the counter is below
      `LIMIT_RETRIES`; any other error is raised at once. */
  function Connect(m: Manager, script: Script, retry: nat): (s: Step<()>)
    ensures m.connection.Some? ==> s == Step(m, script, [], Success(()))
    ensures s.out.Success? <==> s.m.connection.Some?
    ensures s.m.cursor == m.cursor && s.m.reconnect == m.reconnect && s.m.lastQuery == m.lastQuery
    ensures Valid(m) ==> Valid(s.m)
    ensures m.connection.None? && s.out.Success? ==>
      s.m.connection == Some(Connection(m.issued)) && s.m.issued == m.issued + 1
    ensures s.out.Failure? ==> s.m == m
    ensures NoStatements(s.events)
    decreases LIMIT_RETRIES - retry
  {
    if m.connection.Some? then Step(m, script, [], Success(()))
    else
      match NextOutcome(script)
      case Succeeds(_) =>
        Step(m.(connection := Some(Connection(m.issued)), issued := m.issued + 1),
             Advance(script), [ConnectAttempt], Success(()))
      case Raises(f) =>
        if f.OperationalError? && m.reconnect && retry < LIMIT_RETRIES then
          var rest := Connect(m, Advance(script), retry + 1);
          rest.(events := [ConnectAttempt, Sleep(CONNECT_BACKOFF)] + rest.events)
        else
          Step(m, Advance(script), [ConnectAttempt], Failure(f))
  }

  /** The number of attempts `connect` may make from counter `retry`. */
  function ConnectBudget(reconnect: bool, retry: nat): nat
  {
    if reconnect && retry <= LIMIT_RETRIES then LIMIT_RETRIES - retry + 1 else 1
  }

  /** How many outcomes at the head of the script are `OperationalError`s. */
  function LeadingOperational(script: Script): (k: nat)
    ensures k <= |script|
    ensures forall i :: 0 <= i < k ==> script[i] == Raises(OperationalError)
    ensures k < |script| ==> script[k] != Raises(OperationalError)
  {
    if |script| > 0 && script[0] == Raises(OperationalError) then 1 + LeadingOperational(script[1..]) else 0
  }

  /** The outcome of attempt `k`; past the end of the script, success. */
  function OutcomeAt(script: Script, k: nat): Outcome
  {
    if k < |script| then script[k] else Succeeds([])
  }

  function AsResult(o: Outcome): Result<(), Failure>
  {
    match o
    case Succeeds(_) => Success(())
    case Raises(f) => Failure(f)
  }

  /** The events of `n` connect attempts: an attempt, then a sleep of
      `CONNECT_BACKOFF` and another attempt, `n - 1` times. */
  function ConnectLog(n: nat): seq<Event>
    requires n >= 1
  {
    if n == 1 then [ConnectAttempt] else [ConnectAttempt, Sleep(CONNECT_BACKOFF)] + ConnectLog(n - 1)
  }

  /** The script with its first `n` outcomes used up. */
  function Drop(script: Script, n: nat): Script
  {
    if n <= |script| then script[n..] else []
  }

  /** How many attempts `connect` makes: one past the leading operational
      errors, but no more than the budget. */
  function ConnectCount(script: Script, reconnect: bool, retry: nat): nat
  {
    var k := LeadingOperational(script);
    var b := ConnectBudget(reconnect, retry);
    if k < b then k + 1 else b
  }

  /** How `connect` ends: with the outcome of the first attempt that is not an
      operational error when that attempt is within the budget, and otherwise
      with `OperationalError`. */
  function ConnectResult(script: Script, reconnect: bool, retry: nat): Result<(), Failure>
  {
    var k := LeadingOperational(script);
    if k < ConnectBudget(reconnect, retry) then AsResult(OutcomeAt(script, k)) else Failure(OperationalError)
  }

  /** `connect` in closed form: it makes `ConnectCount` attempts, using up that
      many outcomes and sleeping between attempts, and ends with `ConnectResult`. */
  lemma {:induction false} ConnectAttempts(m: Manager, script: Script, retry: nat)
    requires m.connection.None?
    ensures Connect(m, script, retry).events == ConnectLog(ConnectCount(script, m.reconnect, retry))
    ensures Connect(m, script, retry).script == Drop(script, ConnectCount(script, m.reconnect, retry))
    ensures Connect(m, script, retry).out == ConnectResult(script, m.reconnect, retry)
    decreases LIMIT_RETRIES - retry, 1
  {
    if NextOutcome(script) == Raises(OperationalError) && m.reconnect && retry < LIMIT_RETRIES {
      ConnectAttemptsRetry(m, script, retry);
    } else {
      ConnectAttemptsFinal(m, script, retry);
    }
  }

  /** The closed form when the first attempt raises an error `connect` retries. */
  lemma {:induction false} ConnectAttemptsRetry(m: Manager, script: Script, retry: nat)
    requires m.connection.None? && m.reconnect && retry < LIMIT_RETRIES
    requires NextOutcome(script) == Raises(OperationalError)
    ensures Connect(m, script, retry).events == ConnectLog(ConnectCount(script, true, retry))
    ensures Connect(m, script, retry).script == Drop(script, ConnectCount(script, true, retry))
    ensures Connect(m, script, retry).out == ConnectResult(script, true, retry)
    decreases LIMIT_RETRIES - retry, 0
  {
    ConnectRetryUnfold(m, script, retry);
    ConnectAttempts(m, script[1..], retry + 1);
    ConnectRetryStep(script, retry);
  }

  /** The closed form when the first attempt is the last one. */
  lemma ConnectAttemptsFinal(m: Manager, script: Script, retry: nat)
    requires m.connection.None?
    requires !(NextOutcome(script) == Raises(OperationalError) && m.reconnect && retry < LIMIT_RETRIES)
    ensures Connect(m, script, retry).events == ConnectLog(ConnectCount(script, m.reconnect, retry))
    ensures Connect(m, script, retry).script == Drop(script, ConnectCount(script, m.reconnect, retry))
    ensures Connect(m, script, retry).out == ConnectResult(script, m.reconnect, retry)
  {
    ConnectFinalStep(script, m.reconnect, retry);
  }

  /** A retried connect is one attempt and one sleep, then the connect of
      the rest of the script. */
  lemma ConnectRetryUnfold(m: Manager, script: Script, retry: nat)
    requires m.connection.None? && m.reconnect && retry < LIMIT_RETRIES
    requires NextOutcome(script) == Raises(OperationalError)
    ensures var rest := Connect(m, script[1..], retry + 1);
      && Connect(m, script, retry).events == [ConnectAttempt, Sleep(CONNECT_BACKOFF)] + rest.events
      && Connect(m, script, retry).script == rest.script
      && Connect(m, script, retry).out == rest.out
  {
  }

  /** One retry of `connect` in closed form: the remaining attempts are one fewer. */
  lemma ConnectRetryStep(script: Script, retry: nat)
    requires |script| > 0 && script[0] == Raises(OperationalError) && retry < LIMIT_RETRIES
    ensures ConnectCount(script, true, retry) == ConnectCount(script[1..], true, retry + 1) + 1
    ensures ConnectLog(ConnectCount(script, true, retry))
         == [ConnectAttempt, Sleep(CONNECT_BACKOFF)] + ConnectLog(ConnectCount(script[1..], true, retry + 1))
    ensures Drop(script, ConnectCount(script, true, retry)) == Drop(script[1..], ConnectCount(script[1..], true, retry + 1))
    ensures ConnectResult(script, true, retry) == ConnectResult(script[1..], true, retry + 1)
  {
    var k := LeadingOperational(script[1..]);
    if k < |script[1..]| {
      assert OutcomeAt(script, k + 1) == OutcomeAt(script[1..], k);
    }
  }

  /** The attempt at which `connect` stops, in closed form. */
  lemma ConnectFinalStep(script: Script, reconnect: bool, retry: nat)
    requires !(|script| > 0 && script[0] == Raises(OperationalError) && reconnect && retry < LIMIT_RETRIES)
    ensures ConnectCount(script, reconnect, retry) == 1
    ensures ConnectResult(script, reconnect, retry) == AsResult(NextOutcome(script))
  {
  }

  /** When every attempt raises `OperationalError` and `reconnect` is set,
      `connect` makes exactly `LIMIT_RETRIES + 1` attempts, sleeping
      `CONNECT_BACKOFF` between them, and then raises that error. */
  lemma ConnectGivesUp(m: Manager, script: Script)
    requires m.connection.None? && m.reconnect
    requires |script| >= LIMIT_RETRIES + 1
    requires forall i :: 0 <= i <= LIMIT_RETRIES ==> script[i] == Raises(OperationalError)
    ensures Connect(m, script, 0).out == Failure(OperationalError)
    ensures Connect(m, script, 0).events == ConnectLog(LIMIT_RETRIES + 1)
    ensures Connect(m, script, 0).m.connection.None?
  {
    ConnectAttempts(m, script, 0);
    LeadingCount(script, LIMIT_RETRIES + 1);
  }

  lemma {:induction false} LeadingCount(script: Script, n: nat)
    requires n <= |script|
    requires forall i :: 0 <= i < n ==> script[i] == Raises(OperationalError)
    ensures LeadingOperational(script) >= n
    decreases n
  {
    if n > 0 {
      LeadingCount(script[1..], n - 1);
    }
  }

  /** `ConnectLog(n)` holds `n` attempts and `n - 1` sleeps. */
  lemma {:induction false} ConnectLogShape(n: nat)
    requires n >= 1
    ensures |ConnectLog(n)| == 2 * n - 1
    ensures forall i :: 0 <= i < |ConnectLog(n)| ==>
      ConnectLog(n)[i] == (if i % 2 == 0 then ConnectAttempt else Sleep(CONNECT_BACKOFF))
  {
    if n > 1 {
      ConnectLogShape(n - 1);
      var tail := ConnectLog(n - 1);
      forall i | 0 <= i < |ConnectLog(n)|
        ensures ConnectLog(n)[i] == (if i % 2 == 0 then ConnectAttempt else Sleep(CONNECT_BACKOFF))
      {
        if i >= 2 {
          assert ConnectLog(n)[i] == tail[i - 2];
        }
      }
    }
  }

  /** With `reconnect` off, `connect` makes exactly one attempt and ends with its outcome. */
  lemma ConnectOnce(m: Manager, script: Script, retry: nat)
    requires m.connection.None? && !m.reconnect
    ensures Connect(m, script, retry).events == [ConnectAttempt]
    ensures Connect(m, script, retry).out == AsResult(NextOutcome(script))
  {
  }

  /** Any error other than `OperationalError` is raised by the first attempt, without retry. */
  lemma ConnectRaisesOtherAtOnce(m: Manager, script: Script, retry: nat)
    requires m.connection.None?
    requires NextOutcome(script).Raises? && !NextOutcome(script).failure.OperationalError?
    ensures Connect(m, script, retry).events == [ConnectAttempt]
    ensures Connect(m, script, retry).out == Failure(NextOutcome(script).failure)
  {
  }

  // ------------------------------------------------------------- cursor

  predicate HasOpenCursor(m: Manager)
  {
    m.cursor.Some? && !m.cursor.value.closed
  }

  /** `cursor()`: keeps an open cursor; otherwise connects when there is no
      connection and opens a fresh cursor on the connection. */
  function OpenCursor(m: Manager, script: Script): (s: Step<()>)
    requires Valid(m)
    ensures Valid(s.m)
    ensures HasOpenCursor(m) ==> s == Step(m, script, [], Success(()))
    ensures s.out.Success? ==> HasOpenCursor(s.m)
    ensures s.out.Success? && !HasOpenCursor(m) ==>
      s.m.cursor == Some(Cursor(s.m.connection.value.serial, false, []))
    ensures s.out.Failure? ==> s.m == m
    ensures m.connection.Some? && !HasOpenCursor(m) ==> s.script == script && s.events == [] && s.m.connection == m.connection
    ensures s.m.reconnect == m.reconnect && s.m.lastQuery == m.lastQuery
    ensures NoStatements(s.events)
  {
    if HasOpenCursor(m) then Step(m, script, [], Success(()))
    else
      var c := Connect(m, script, 0);
      if c.out.Failure? then c
      else c.(m := c.m.(cursor := Some(Cursor(c.m.connection.value.serial, false, []))))
  }

  // ------------------------------------------------------ close and reset

  /** `close()`: closes the cursor and the connection, and forgets both. */
  function Close(m: Manager): (r: Manager)
    ensures r.connection.None? && r.cursor.None?
    ensures r.reconnect == m.reconnect && r.issued == m.issued && r.lastQuery == m.lastQuery
    ensures Valid(r)
  {
    m.(connection := None, cursor := None)
  }

  /** Closing twice is closing once. */
  lemma CloseIdempotent(m: Manager)
    ensures Close(Close(m)) == Close(m)
  {
  }

  /** `reset()`: close, connect, open a cursor. On success both the connection
      and the cursor are new: the connection has a serial never used before
      and the cursor has nothing to fetch. */
  function Reset(m: Manager, script: Script): (s: Step<()>)
    ensures Valid(s.m)
    ensures s.out.Success? ==>
      && s.m.connection == Some(Connection(m.issued))
      && s.m.cursor == Some(Cursor(m.issued, false, []))
      && s.m.issued == m.issued + 1
    ensures s.out.Failure? ==> s.m.connection.None? && s.m.cursor.None?
    ensures s.m.reconnect == m.reconnect && s.m.lastQuery == m.lastQuery
    ensures NoStatements(s.events)
  {
    var c := Connect(Close(m), script, 0);
    if c.out.Failure? then c
    else OpenCursor(c.m, c.script).(events := c.events)
  }

  /** A reset's connection was never in use before it: its serial is beyond
      every serial a valid manager can hold. */
  lemma ResetIsFresh(m: Manager, script: Script)
    requires Valid(m)
    requires Reset(m, script).out.Success?
    ensures m.connection.Some? ==> Reset(m, script).m.connection.value.serial > m.connection.value.serial
    ensures m.cursor.Some? ==> Reset(m, script).m.cursor.value.connection != m.cursor.value.connection
  {
  }

  // ------------------------------------------------------------ execute

  /** The rows a fetch hands back: the first row or none for `fetchone()`,
      all of them for `fetchall()`. */
  function Deliver(rows: seq<Row>, isOne: bool): Fetched
  {
    if isOne then One(if |rows| == 0 then None else Some(rows[0])) else All(rows)
  }

  /** `fetchone()` or `fetchall()` on the current cursor: the rows handed back
      leave the cursor's buffer. */
  function Fetch(m: Manager, isOne: bool): (r: (Manager, Result<Fetched, Failure>))
    ensures Valid(m) ==> Valid(r.0)
    ensures r.0.connection == m.connection && r.0.reconnect == m.reconnect
    ensures r.0.lastQuery == m.lastQuery && r.0.issued == m.issued
    ensures HasOpenCursor(m) ==> HasOpenCursor(r.0) && r.1 == Success(Deliver(m.cursor.value.pending, isOne))
    ensures HasOpenCursor(m) && !isOne ==> r.0.cursor.value.pending == []
    ensures HasOpenCursor(m) && isOne && |m.cursor.value.pending| > 0 ==>
      r.0.cursor.value.pending == m.cursor.value.pending[1..]
  {
    if !HasOpenCursor(m) then (m, Failure(NonDatabaseError))
    else
      var c := m.cursor.value;
      if !isOne then (m.(cursor := Some(c.(pending := []))), Success(All(c.pending)))
      else if |c.pending| == 0 then (m, Success(One(None)))
      else (m.(cursor := Some(c.(pending := c.pending[1..]))), Success(One(Some(c.pending[0]))))
  }

  function ExecutedCount(events: seq<Event>): nat
  {
    if |events| == 0 then 0 else (if events[0].Executed? then 1 else 0) + ExecutedCount(events[1..])
  }

  /** None of `events` is an attempt to run a statement. */
  predicate NoStatements(events: seq<Event>)
  {
    forall i :: 0 <= i < |events| ==> !events[i].Executed?
  }

  /** The number of statement attempts `execute` may make from counter `retry`. */
  function ExecuteBudget(retry: nat): nat
  {
    if retry <= LIMIT_RETRIES then LIMIT_RETRIES - retry + 1 else 1
  }

  /** The last event is a successful attempt at `query`. */
  predicate EndsInSuccess(events: seq<Event>, query: string)
  {
    && |events| > 0
    && events[|events| - 1].Executed? && events[|events| - 1].query == query
    && events[|events| - 1].outcome.Succeeds?
  }

  /** Every attempt among `events` runs `query`. */
  predicate OnlyRuns(events: seq<Event>, query: string)
  {
    forall i :: 0 <= i < |events| && events[i].Executed? ==> events[i].query == query
  }

  /** `execute(query, retry_counter, is_one)` with its retry path corrected to
      hand back the result of the retried call, `is_one` included. A missing
      cursor (`None.execute`) or a closed one (`InterfaceError`) raises without
      reaching the driver; a `DatabaseError` of any kind is retried after a
      sleep of `EXECUTE_BACKOFF` and a `reset()` while the counter is below
      `LIMIT_RETRIES`; any other error is raised at once. On success the caller
      gets exactly the rows of the attempt that succeeded. */
  function Execute(m: Manager, script: Script, query: string, retry: nat, isOne: bool): (s: Step<Fetched>)
    ensures Valid(m) ==> Valid(s.m)
    ensures s.m.reconnect == m.reconnect && s.m.lastQuery == m.lastQuery
    ensures s.out.Success? ==>
      EndsInSuccess(s.events, query) && s.out.value == Deliver(s.events[|s.events| - 1].outcome.rows, isOne)
    decreases LIMIT_RETRIES - retry
  {
    if !HasOpenCursor(m) then Step(m, script, [], Failure(NonDatabaseError))
    else
      var o := NextOutcome(script);
      match o
      case Succeeds(rows) =>
        var f := Fetch(m.(cursor := Some(m.cursor.value.(pending := rows))), isOne);
        Step(f.0, Advance(script), [Executed(query, o)], f.1)
      case Raises(f) =>
        if IsDatabaseError(f) && retry < LIMIT_RETRIES then
          var r := Reset(m, Advance(script));
          var before := [Executed(query, o), Sleep(EXECUTE_BACKOFF)] + r.events;
          if r.out.Failure? then Step(r.m, r.script, before, Failure(r.out.error))
          else
            var rest := Execute(r.m, r.script, query, retry + 1, isOne);
            rest.(events := before + rest.events)
        else
          Step(m, Advance(script), [Executed(query, o)], Failure(f))
  }

  /** `execute` when the first attempt raises a retried error: the failed
      attempt and a sleep, then the reset; if the reset raises, so does
      `execute`, otherwise the retried call's events and result follow. */
  lemma ExecuteRetryEvents(m: Manager, script: Script, query: string, retry: nat, isOne: bool)
    requires RetriesFirst(m, script, retry)
    ensures var r := Reset(m, Advance(script));
            var before := [Executed(query, NextOutcome(script)), Sleep(EXECUTE_BACKOFF)] + r.events;
            var s := Execute(m, script, query, retry, isOne);
            && (r.out.Failure? ==> s.events == before && s.script == r.script && s.out == Failure(r.out.error))
            && (r.out.Success? ==>
                  var rest := Execute(r.m, r.script, query, retry + 1, isOne);
                  s.events == before + rest.events && s.script == rest.script && s.out == rest.out)
  {
  }

  /** The first attempt raises an error `execute` retries. */
  predicate RetriesFirst(m: Manager, script: Script, retry: nat)
  {
    HasOpenCursor(m) && NextOutcome(script).Raises? && IsDatabaseError(NextOutcome(script).failure)
    && retry < LIMIT_RETRIES
  }

  /** Every attempt `execute` makes runs the query it was given. */
  lemma {:induction false} ExecuteRunsQuery(m: Manager, script: Script, query: string, retry: nat, isOne: bool)
    ensures OnlyRuns(Execute(m, script, query, retry, isOne).events, query)
    decreases LIMIT_RETRIES - retry, 1
  {
    if RetriesFirst(m, script, retry) {
      ExecuteRunsQueryRetry(m, script, query, retry, isOne);
    }
  }

  lemma {:induction false} ExecuteRunsQueryRetry(m: Manager, script: Script, query: string, retry: nat, isOne: bool)
    requires RetriesFirst(m, script, retry)
    ensures OnlyRuns(Execute(m, script, query, retry, isOne).events, query)
    decreases LIMIT_RETRIES - retry, 0
  {
    var r := Reset(m, Advance(script));
    var before := [Executed(query, NextOutcome(script)), Sleep(EXECUTE_BACKOFF)] + r.events;
    ExecuteRetryEvents(m, script, query, retry, isOne);
    assert OnlyRuns(before, query);
    if r.out.Success? {
      ExecuteRunsQuery(r.m, r.script, query, retry + 1, isOne);
      OnlyRunsAppend(before, Execute(r.m, r.script, query, retry + 1, isOne).events, query);
    }
  }

  /** `execute` makes at most `ExecuteBudget(retry)` attempts. */
  lemma {:induction false} ExecuteBounded(m: Manager, script: Script, query: string, retry: nat, isOne: bool)
    ensures ExecutedCount(Execute(m, script, query, retry, isOne).events) <= ExecuteBudget(retry)
    decreases LIMIT_RETRIES - retry, 1
  {
    if RetriesFirst(m, script, retry) {
      ExecuteBoundedRetry(m, script, query, retry, isOne);
    }
  }

  lemma {:induction false} ExecuteBoundedRetry(m: Manager, script: Script, query: string, retry: nat, isOne: bool)
    requires RetriesFirst(m, script, retry)
    ensures ExecutedCount(Execute(m, script, query, retry, isOne).events) <= ExecuteBudget(retry)
    decreases LIMIT_RETRIES - retry, 0
  {
    var r := Reset(m, Advance(script));
    ExecuteRetryEvents(m, script, query, retry, isOne);
    RetryPrefixCount(m, script, query);
    if r.out.Success? {
      var before := [Executed(query, NextOutcome(script)), Sleep(EXECUTE_BACKOFF)] + r.events;
      var rest := Execute(r.m, r.script, query, retry + 1, isOne).events;
      ExecuteBounded(r.m, r.script, query, retry + 1, isOne);
      CountAppend(before, rest);
    }
  }

  /** The failed attempt, the sleep and the reconnect run one statement. */
  lemma RetryPrefixCount(m: Manager, script: Script, query: string)
    ensures var r := Reset(m, Advance(script));
      ExecutedCount([Executed(query, NextOutcome(script)), Sleep(EXECUTE_BACKOFF)] + r.events) == 1
  {
    var r := Reset(m, Advance(script));
    NoStatementsCount(r.events);
    CountAppend([Executed(query, NextOutcome(script)), Sleep(EXECUTE_BACKOFF)], r.events);
  }

  lemma OnlyRunsAppend(a: seq<Event>, b: seq<Event>, query: string)
    requires OnlyRuns(a, query) && OnlyRuns(b, query)
    ensures OnlyRuns(a + b, query)
  {
    forall i | 0 <= i < |a + b| && (a + b)[i].Executed?
      ensures (a + b)[i].query == query
    {
      if i >= |a| {
        assert (a + b)[i] == b[i - |a|];
      }
    }
  }

  lemma {:induction false} CountAppend(a: seq<Event>, b: seq<Event>)
    ensures ExecutedCount(a + b) == ExecutedCount(a) + ExecutedCount(b)
    decreases |a|
  {
    if |a| > 0 {
      assert (a + b)[1..] == a[1..] + b;
      CountAppend(a[1..], b);
    } else {
      assert a + b == b;
    }
  }

  lemma {:induction false} NoStatementsCount(events: seq<Event>)
    requires NoStatements(events)
    ensures ExecutedCount(events) == 0
    decreases |events|
  {
    if |events| > 0 {
      NoStatementsCount(events[1..]);
    }
  }

  /** A script in which statement attempts raise `failures` in turn and each
      reconnect in between succeeds at its first try. */
  function FailingScript(failures: seq<Failure>): Script
  {
    if |failures| == 0 then [] else [Raises(failures[0]), Succeeds([])] + FailingScript(failures[1..])
  }

  /** The events of `execute` against `FailingScript(failures)`: each failed
      attempt but the last is followed by a sleep and a reconnect. */
  function FailingEvents(query: string, failures: seq<Failure>): seq<Event>
    requires |failures| >= 1
  {
    if |failures| == 1 then [Executed(query, Raises(failures[0]))]
    else [Executed(query, Raises(failures[0])), Sleep(EXECUTE_BACKOFF), ConnectAttempt]
         + FailingEvents(query, failures[1..])
  }

  /** A reset whose first connect attempt succeeds makes that one attempt. */
  lemma ResetFirstTry(m: Manager, script: Script)
    requires |script| > 0 && script[0].Succeeds?
    ensures Reset(m, script).out.Success?
    ensures Reset(m, script).events == [ConnectAttempt]
    ensures Reset(m, script).script == script[1..]
  {
  }

  /** Each failure in `failures` is one statement attempt. */
  lemma {:induction false} FailingEventsCount(query: string, failures: seq<Failure>)
    requires |failures| >= 1
    ensures ExecutedCount(FailingEvents(query, failures)) == |failures|
    decreases |failures|
  {
    if |failures| > 1 {
      var head := [Executed(query, Raises(failures[0])), Sleep(EXECUTE_BACKOFF), ConnectAttempt];
      FailingEventsCount(query, failures[1..]);
      CountAppend(head, FailingEvents(query, failures[1..]));
      NoStatementsCount(head[1..]);
    } else {
      assert ExecutedCount(FailingEvents(query, failures)) == 1;
    }
  }

  /** When every statement attempt raises a database error, `execute` gives up
      after exactly `ExecuteBudget(retry)` attempts and raises the last error. */
  lemma {:induction false} ExecuteGivesUp(m: Manager, query: string, retry: nat, isOne: bool, failures: seq<Failure>)
    requires HasOpenCursor(m)
    requires retry <= LIMIT_RETRIES && |failures| == LIMIT_RETRIES - retry + 1
    requires NonDatabaseError !in failures
    ensures Execute(m, FailingScript(failures), query, retry, isOne).out == Failure(failures[|failures| - 1])
    ensures Execute(m, FailingScript(failures), query, retry, isOne).events == FailingEvents(query, failures)
    ensures ExecutedCount(FailingEvents(query, failures)) == ExecuteBudget(retry)
    decreases |failures|, 2
  {
    FailingEventsCount(query, failures);
    if retry < LIMIT_RETRIES {
      ExecuteGivesUpRetry(m, query, retry, isOne, failures);
    } else {
      assert FailingScript(failures)[0] == Raises(failures[0]);
    }
  }

  lemma {:induction false} ExecuteGivesUpRetry(m: Manager, query: string, retry: nat, isOne: bool, failures: seq<Failure>)
    requires HasOpenCursor(m)
    requires retry < LIMIT_RETRIES && |failures| == LIMIT_RETRIES - retry + 1
    requires NonDatabaseError !in failures
    ensures Execute(m, FailingScript(failures), query, retry, isOne).out == Failure(failures[|failures| - 1])
    ensures Execute(m, FailingScript(failures), query, retry, isOne).events == FailingEvents(query, failures)
    decreases |failures|, 1
  {
    FailingScriptReset(m, failures);
    GivesUpTail(m, query, retry, isOne, failures);
    GivesUpTailRaises(m, query, retry, isOne, failures);
    ExecuteRetryEvents(m, FailingScript(failures), query, retry, isOne);
    FailingEventsUnfold(query, failures);
  }

  /** The retried call, after the first failure and the reconnect, gives up
      on the remaining failures ... */
  lemma {:induction false} GivesUpTail(m: Manager, query: string, retry: nat, isOne: bool, failures: seq<Failure>)
    requires HasOpenCursor(m)
    requires retry < LIMIT_RETRIES && |failures| == LIMIT_RETRIES - retry + 1
    requires NonDatabaseError !in failures
    ensures var r := Reset(m, Advance(FailingScript(failures)));
      Execute(r.m, FailingScript(failures[1..]), query, retry + 1, isOne).events == FailingEvents(query, failures[1..])
    decreases |failures|, 0
  {
    var r := Reset(m, Advance(FailingScript(failures)));
    var rest := failures[1..];
    assert HasOpenCursor(r.m) by {
      FailingScriptReset(m, failures);
    }
    GivesUpEvents(r.m, query, retry + 1, isOne, rest);
  }

  /** The events half of `ExecuteGivesUp`, on its own. */
  lemma {:induction false} GivesUpEvents(m: Manager, query: string, retry: nat, isOne: bool, failures: seq<Failure>)
    requires HasOpenCursor(m)
    requires retry <= LIMIT_RETRIES && |failures| == LIMIT_RETRIES - retry + 1
    requires NonDatabaseError !in failures
    ensures Execute(m, FailingScript(failures), query, retry, isOne).events == FailingEvents(query, failures)
    decreases |failures|, 3
  {
    ExecuteGivesUp(m, query, retry, isOne, failures);
  }

  /** The raised half of `ExecuteGivesUp`, on its own. */
  lemma {:induction false} GivesUpOut(m: Manager, query: string, retry: nat, isOne: bool, failures: seq<Failure>)
    requires HasOpenCursor(m)
    requires retry <= LIMIT_RETRIES && |failures| == LIMIT_RETRIES - retry + 1
    requires NonDatabaseError !in failures
    ensures Execute(m, FailingScript(failures), query, retry, isOne).out == Failure(failures[|failures| - 1])
    decreases |failures|, 3
  {
    ExecuteGivesUp(m, query, retry, isOne, failures);
  }

  /** ... raising the last of them. */
  lemma {:induction false} GivesUpTailRaises(m: Manager, query: string, retry: nat, isOne: bool, failures: seq<Failure>)
    requires HasOpenCursor(m)
    requires retry < LIMIT_RETRIES && |failures| == LIMIT_RETRIES - retry + 1
    requires NonDatabaseError !in failures
    ensures var r := Reset(m, Advance(FailingScript(failures)));
      Execute(r.m, FailingScript(failures[1..]), query, retry + 1, isOne).out == Failure(failures[|failures| - 1])
    decreases |failures|, 0
  {
    var r := Reset(m, Advance(FailingScript(failures)));
    var rest := failures[1..];
    assert rest[|rest| - 1] == failures[|failures| - 1];
    assert HasOpenCursor(r.m) by {
      FailingScriptReset(m, failures);
    }
    GivesUpOut(r.m, query, retry + 1, isOne, rest);
  }

  /** After the first failure of a failing script, the reconnect succeeds at
      once and leaves the script of the remaining failures. */
  lemma FailingScriptReset(m: Manager, failures: seq<Failure>)
    requires |failures| >= 1
    ensures var script := FailingScript(failures);
      var r := Reset(m, Advance(script));
      && NextOutcome(script) == Raises(failures[0])
      && r.out.Success? && r.events == [ConnectAttempt]
      && r.script == FailingScript(failures[1..])
  {
    var after := Advance(FailingScript(failures));
    FailingScriptUnfold(failures);
    assert after[1..] == FailingScript(failures[1..]);
    ResetFirstTry(m, after);
  }

  /** A failing script starts with its first failure and, after it, the
      successful reconnect. */
  lemma FailingScriptUnfold(failures: seq<Failure>)
    requires |failures| >= 1
    ensures NextOutcome(FailingScript(failures)) == Raises(failures[0])
    ensures Advance(FailingScript(failures)) == [Succeeds([])] + FailingScript(failures[1..])
  {
    var rest := FailingScript(failures[1..]);
    assert FailingScript(failures) == [Raises(failures[0]), Succeeds([])] + rest;
  }

  lemma FailingEventsUnfold(query: string, failures: seq<Failure>)
    requires |failures| >= 2
    ensures FailingEvents(query, failures)
         == [Executed(query, Raises(failures[0])), Sleep(EXECUTE_BACKOFF)] + [ConnectAttempt]
            + FailingEvents(query, failures[1..])
  {
  }

  /** A non-database error is raised by the first attempt, without retry. */
  lemma ExecuteRaisesOtherAtOnce(m: Manager, script: Script, query: string, retry: nat, isOne: bool)
    requires HasOpenCursor(m) && NextOutcome(script) == Raises(NonDatabaseError)
    ensures Execute(m, script, query, retry, isOne).out == Failure(NonDatabaseError)
    ensures Execute(m, script, query, retry, isOne).events == [Executed(query, Raises(NonDatabaseError))]
  {
  }

  /** What the events of `execute` look like: an attempt that is not the last
      event raised a `DatabaseError`, and the sleep of `EXECUTE_BACKOFF` and
      the first connect attempt of the reset come right after it. Only the
      last attempt can have succeeded. */
  predicate BacksOff(events: seq<Event>)
  {
    forall i :: 0 <= i < |events| - 1 && events[i].Executed? ==>
      && events[i].outcome.Raises? && IsDatabaseError(events[i].outcome.failure)
      && i + 2 < |events| && events[i + 1] == Sleep(EXECUTE_BACKOFF) && events[i + 2] == ConnectAttempt
  }

  /** Every attempt of `execute` but the last failed with a retried error and
      was followed by the back-off sleep and a reconnect. */
  lemma {:induction false} ExecuteBacksOff(m: Manager, script: Script, query: string, retry: nat, isOne: bool)
    ensures BacksOff(Execute(m, script, query, retry, isOne).events)
    decreases LIMIT_RETRIES - retry, 1
  {
    if RetriesFirst(m, script, retry) {
      ExecuteBacksOffRetry(m, script, query, retry, isOne);
    }
  }

  lemma {:induction false} ExecuteBacksOffRetry(m: Manager, script: Script, query: string, retry: nat, isOne: bool)
    requires RetriesFirst(m, script, retry)
    ensures BacksOff(Execute(m, script, query, retry, isOne).events)
    decreases LIMIT_RETRIES - retry, 0
  {
    var r := Reset(m, Advance(script));
    ExecuteRetryEvents(m, script, query, retry, isOne);
    ResetStartsWithAttempt(m, Advance(script));
    if r.out.Success? {
      var rest := Execute(r.m, r.script, query, retry + 1, isOne).events;
      ExecuteBacksOff(r.m, r.script, query, retry + 1, isOne);
      BacksOffAfterRetry(query, NextOutcome(script), r.events, rest);
    } else {
      BacksOffAfterRetry(query, NextOutcome(script), r.events, []);
      assert [Executed(query, NextOutcome(script)), Sleep(EXECUTE_BACKOFF)] + r.events + []
          == [Executed(query, NextOutcome(script)), Sleep(EXECUTE_BACKOFF)] + r.events;
    }
  }

  /** A reset starts with an attempt to connect. */
  lemma ResetStartsWithAttempt(m: Manager, script: Script)
    ensures |Reset(m, script).events| > 0 && Reset(m, script).events[0] == ConnectAttempt
  {
    ConnectAttempts(Close(m), script, 0);
    ConnectLogShape(ConnectCount(script, m.reconnect, 0));
  }

  /** A failed attempt, the sleep and the reset in front of events that back off. */
  lemma BacksOffAfterRetry(query: string, o: Outcome, reset: seq<Event>, rest: seq<Event>)
    requires o.Raises? && IsDatabaseError(o.failure)
    requires |reset| > 0 && reset[0] == ConnectAttempt && NoStatements(reset)
    requires BacksOff(rest)
    ensures BacksOff([Executed(query, o), Sleep(EXECUTE_BACKOFF)] + reset + rest)
  {
    var all := [Executed(query, o), Sleep(EXECUTE_BACKOFF)] + reset + rest;
    var n := 2 + |reset|;
    assert forall k :: 2 <= k < n ==> all[k] == reset[k - 2];
    forall i | 0 <= i < |all| - 1 && all[i].Executed?
      ensures all[i].outcome.Raises? && IsDatabaseError(all[i].outcome.failure)
      ensures i + 2 < |all| && all[i + 1] == Sleep(EXECUTE_BACKOFF) && all[i + 2] == ConnectAttempt
    {
      if i >= n {
        assert all[i] == rest[i - n] && all[i + 1] == rest[i - n + 1];
        if i + 2 < |all| {
          assert all[i + 2] == rest[i - n + 2];
        }
      }
    }
  }

  // ----------------------------------------------- execute, as written

  /** `execute` exactly as written: the retried call is made without `is_one`,
      its result is dropped, and the outer call then fetches from the cursor
      the retried call has already read to the end. */
  function ExecuteAsWritten(m: Manager, script: Script, query: string, retry: nat, isOne: bool): (s: Step<Fetched>)
    ensures Valid(m) ==> Valid(s.m)
    ensures s.m.reconnect == m.reconnect && s.m.lastQuery == m.lastQuery
    ensures s.out.Success? ==> HasOpenCursor(s.m) && EndsInSuccess(s.events, query)
    ensures s.out.Success? && !isOne ==> s.m.cursor.value.pending == []
    ensures s.out.Success? && |s.events| == 1 ==> s.out.value == Deliver(s.events[0].outcome.rows, isOne)
    ensures s.out.Success? && |s.events| > 1 ==> s.out.value == Deliver([], isOne)
    decreases LIMIT_RETRIES - retry
  {
    if !HasOpenCursor(m) then Step(m, script, [], Failure(NonDatabaseError))
    else
      var o := NextOutcome(script);
      match o
      case Succeeds(rows) =>
        var f := Fetch(m.(cursor := Some(m.cursor.value.(pending := rows))), isOne);
        Step(f.0, Advance(script), [Executed(query, o)], f.1)
      case Raises(f) =>
        if IsDatabaseError(f) && retry < LIMIT_RETRIES then
          var r := Reset(m, Advance(script));
          var before := [Executed(query, o), Sleep(EXECUTE_BACKOFF)] + r.events;
          if r.out.Failure? then Step(r.m, r.script, before, Failure(r.out.error))
          else
            var inner := ExecuteAsWritten(r.m, r.script, query, retry + 1, false);
            if inner.out.Failure? then inner.(events := before + inner.events)
            else
              var f := Fetch(inner.m, isOne);
              Step(f.0, inner.script, before + inner.events, f.1)
        else
          Step(m, Advance(script), [Executed(query, o)], Failure(f))
  }

  /** The as-written `execute` when the first attempt raises a retried error:
      as for the corrected one, except that a successful retried call is
      followed by one more fetch. */
  lemma AsWrittenRetryEvents(m: Manager, script: Script, query: string, retry: nat, isOne: bool)
    requires RetriesFirst(m, script, retry)
    ensures var r := Reset(m, Advance(script));
            var before := [Executed(query, NextOutcome(script)), Sleep(EXECUTE_BACKOFF)] + r.events;
            var s := ExecuteAsWritten(m, script, query, retry, isOne);
            && (r.out.Failure? ==> s.events == before && s.script == r.script && s.out == Failure(r.out.error))
            && (r.out.Success? ==>
                  var inner := ExecuteAsWritten(r.m, r.script, query, retry + 1, false);
                  && s.events == before + inner.events && s.script == inner.script
                  && (inner.out.Failure? ==> s.out == inner.out)
                  && (inner.out.Success? ==> s.out.Success?))
  {
  }

  /** The as-written and the corrected `execute` make the same attempts in
      the same order, fail together and raise the same error; `is_one` plays
      no part in any of that. */
  lemma {:induction false} AsWrittenAgrees(m: Manager, script: Script, query: string, retry: nat, isOne: bool, isOne': bool)
    ensures ExecuteAsWritten(m, script, query, retry, isOne).events == Execute(m, script, query, retry, isOne').events
    ensures ExecuteAsWritten(m, script, query, retry, isOne).script == Execute(m, script, query, retry, isOne').script
    ensures Execute(m, script, query, retry, isOne').out.Failure?
        ==> ExecuteAsWritten(m, script, query, retry, isOne).out == Execute(m, script, query, retry, isOne').out
    ensures ExecuteAsWritten(m, script, query, retry, isOne).out.Failure?
        ==> Execute(m, script, query, retry, isOne').out.Failure?
    decreases LIMIT_RETRIES - retry
  {
    if RetriesFirst(m, script, retry) {
      ExecuteRetryEvents(m, script, query, retry, isOne');
      AsWrittenRetryEvents(m, script, query, retry, isOne);
      var r := Reset(m, Advance(script));
      if r.out.Success? {
        AsWrittenAgrees(r.m, r.script, query, retry + 1, false, isOne');
      }
    } else {
      AsWrittenSingleAttempt(m, script, query, retry, isOne, isOne');
    }
  }

  /** Without a retry the two versions are the same call: they differ at most
      in what they fetch, and not at all when both fetch alike. */
  lemma AsWrittenSingleAttempt(m: Manager, script: Script, query: string, retry: nat, isOne: bool, isOne': bool)
    requires !RetriesFirst(m, script, retry)
    ensures ExecuteAsWritten(m, script, query, retry, isOne).events == Execute(m, script, query, retry, isOne').events
    ensures ExecuteAsWritten(m, script, query, retry, isOne).script == Execute(m, script, query, retry, isOne').script
    ensures ExecuteAsWritten(m, script, query, retry, isOne).out.Failure?
        <==> Execute(m, script, query, retry, isOne').out.Failure?
    ensures Execute(m, script, query, retry, isOne').out.Failure?
        ==> ExecuteAsWritten(m, script, query, retry, isOne).out == Execute(m, script, query, retry, isOne').out
    ensures isOne == isOne' ==> ExecuteAsWritten(m, script, query, retry, isOne).out == Execute(m, script, query, retry, isOne').out
  {
  }

  /** Whenever the first attempt fails with a retried error and the call still
      succeeds, the as-written `execute` hands back no rows: an empty list for
      `fetchall()`, `None` for `fetchone()`. */
  lemma AsWrittenRetryLosesRows(m: Manager, script: Script, query: string, retry: nat, isOne: bool)
    requires HasOpenCursor(m) && NextOutcome(script).Raises?
    requires ExecuteAsWritten(m, script, query, retry, isOne).out.Success?
    ensures ExecuteAsWritten(m, script, query, retry, isOne).out.value == Deliver([], isOne)
  {
  }

  /** One failed attempt, a reconnect, then a success with one row: the
      corrected `execute` hands the row back, the as-written one an empty list. */
  lemma AsWrittenCounterexample(row: Row)
    ensures var m := Manager(Some(Connection(0)), Some(Cursor(0, false, [])), true, 1, None);
            var script := [Raises(OperationalError), Succeeds([]), Succeeds([row])];
            && ExecuteAsWritten(m, script, "SELECT 1", 0, false).out == Success(All([]))
            && Execute(m, script, "SELECT 1", 0, false).out == Success(All([row]))
  {
    var m := Manager(Some(Connection(0)), Some(Cursor(0, false, [])), true, 1, None);
    var script := [Raises(OperationalError), Succeeds([]), Succeeds([row])];
    ResetFirstTry(m, script[1..]);
    assert script[1..][1..] == [Succeeds([row])];
  }

  // ------------------------------------------------------ select, init

  /** `select(...)`: build the query text, remember it as `last_query`, and run
      it with `execute(query)`, which fetches with `fetchall()`. The call is to
      `execute` as written: when the first attempt succeeds the caller gets its
      rows, and after a retry an empty list. */
  function Select(m: Manager, script: Script, q: PgQuery.SelectSpec): (s: Step<Fetched>)
    ensures s.m.lastQuery == Some(PgQuery.SelectQuery(q))
    ensures Valid(m) ==> Valid(s.m)
    ensures s.out.Success? ==> EndsInSuccess(s.events, PgQuery.SelectQuery(q))
    ensures s.out.Success? && |s.events| == 1 ==> s.out.value == All(s.events[0].outcome.rows)
    ensures s.out.Success? && |s.events| > 1 ==> s.out.value == All([])
  {
    ExecuteAsWritten(m.(lastQuery := Some(PgQuery.SelectQuery(q))), script, PgQuery.SelectQuery(q), 0, false)
  }

  /** Every statement `select` runs is the query it built, and it makes no
      more attempts than `execute` allows. */
  lemma SelectRunsItsQuery(m: Manager, script: Script, q: PgQuery.SelectSpec)
    ensures OnlyRuns(Select(m, script, q).events, PgQuery.SelectQuery(q))
    ensures ExecutedCount(Select(m, script, q).events) <= LIMIT_RETRIES + 1
  {
    var m' := m.(lastQuery := Some(PgQuery.SelectQuery(q)));
    AsWrittenAgrees(m', script, PgQuery.SelectQuery(q), 0, false, false);
    ExecuteRunsQuery(m', script, PgQuery.SelectQuery(q), 0, false);
    ExecuteBounded(m', script, PgQuery.SelectQuery(q), 0, false);
  }

  /** `select` with `execute` corrected: a successful result is the rows of
      the attempt that succeeded, retried or not. */
  function SelectCorrected(m: Manager, script: Script, q: PgQuery.SelectSpec): (s: Step<Fetched>)
    ensures s.m.lastQuery == Some(PgQuery.SelectQuery(q))
    ensures Valid(m) ==> Valid(s.m)
    ensures s.out.Success? ==>
      EndsInSuccess(s.events, PgQuery.SelectQuery(q)) && s.out.value == All(s.events[|s.events| - 1].outcome.rows)
  {
    Execute(m.(lastQuery := Some(PgQuery.SelectQuery(q))), script, PgQuery.SelectQuery(q), 0, false)
  }

  /** The two versions of `select` make the same attempts and fail alike; they
      return the same rows unless the first attempt was retried. */
  lemma SelectsAgree(m: Manager, script: Script, q: PgQuery.SelectSpec)
    ensures Select(m, script, q).events == SelectCorrected(m, script, q).events
    ensures Select(m, script, q).out.Failure? <==> SelectCorrected(m, script, q).out.Failure?
    ensures |Select(m, script, q).events| == 1 ==> Select(m, script, q).out == SelectCorrected(m, script, q).out
  {
    var m' := m.(lastQuery := Some(PgQuery.SelectQuery(q)));
    AsWrittenAgrees(m', script, PgQuery.SelectQuery(q), 0, false, false);
  }

  /** `PgManager()`: no connection or cursor, `reconnect` set, then `connect()`
      and `cursor()`. */
  function Init(script: Script): (s: Step<()>)
    ensures Valid(s.m) && s.m.reconnect && s.m.lastQuery.None?
    ensures s.out.Success? ==> s.m.connection == Some(Connection(0)) && s.m.cursor == Some(Cursor(0, false, []))
    ensures s.out.Failure? ==> s.m.connection.None? && s.m.cursor.None?
    ensures NoStatements(s.events)
  {
    var m := Manager(None, None, true, 0, None);
    var c := Connect(m, script, 0);
    if c.out.Failure? then c
    else OpenCursor(c.m, c.script).(events := c.events)
  }
}

=== FILE: pg_query.dfy ===
/** The text of the `SELECT` statement built by `PgManager.select`
    (pyneed/db/postgre.py). The builder is pure: it turns a query description
    into one SQL string, which the connection manager then executes. */
module PgQuery {
  import opened Base
  import opened Strings
  import Decimal

  /** A non-string scalar filter value; Python renders it with `str`. */
  datatype Num = Int(i: int) | Bool(b: bool)

  /** One element of an iterable filter value. Elements are rendered with
      `str` and never quoted, so a string element appears verbatim. */
  datatype Atom = Number(n: Num) | Word(w: string)

  /** A filter value, by the four branches of the rendering rule: a string,
      `None`, any other iterable, any other scalar. */
  datatype Value = Text(s: string) | Null | List(items: seq<Atom>) | Scalar(n: Num)

  /** The conditions of one operator group: `(column, value)` pairs in the
      insertion order of the Python dict. */
  type Conditions = seq<(string, Value)>

  /** The `filters` argument: `(operator, conditions)` groups in insertion order. */
  type Filters = seq<(string, Conditions)>

  /** The `columns` argument: a Python list of names, or anything else, used verbatim. */
  datatype Columns = Names(names: seq<string>) | Verbatim(text: string)

  /** The arguments of one `select` call. A falsy `order_by` (`None` or the
      empty string) is `None` or `Some("")` here. */
  datatype SelectSpec = SelectSpec(
    table: string,
    columns: Columns,
    filters: Filters,
    orderBy: Option<string>,
    ascending: bool,
    limit: int,
    random: bool)

  /** A call that passes only the table: every keyword argument at its default. */
  function Defaults(table: string): SelectSpec
  {
    SelectSpec(table, Verbatim("*"), [], None, true, 1, false)
  }

  // ---------------------------------------------------------------- values

  function NumText(n: Num): (r: string)
    ensures |r| >= 1 && ',' !in r
    ensures r[0] != '\'' && r[0] != '(' && r != "null"
  {
    match n
    case Int(i) =>
      var r := Decimal.IntToString(i);
      assert ',' !in r by {
        forall k | 0 <= k < |r| ensures r[k] != ',' { }
      }
      r
    case Bool(b) => if b then "True" else "False"
  }

  function AtomText(a: Atom): string
  {
    match a
    case Number(n) => NumText(n)
    case Word(w) => w
  }

  function AtomTexts(items: seq<Atom>): (r: seq<string>)
    ensures |r| == |items|
    ensures forall k :: 0 <= k < |items| ==> r[k] == AtomText(items[k])
  {
    if |items| == 0 then [] else [AtomText(items[0])] + AtomTexts(items[1..])
  }

  /** The SQL text of one filter value: text in single quotes, a list in
      parentheses, and a scalar bare, starting with neither. */
  function RenderValue(v: Value): (r: string)
    ensures v.Text? ==> |r| >= 2 && r[0] == '\'' && r[|r| - 1] == '\''
    ensures v.List? ==> |r| >= 2 && r[0] == '(' && r[|r| - 1] == ')'
    ensures v.Scalar? ==> |r| >= 1 && r[0] != '\'' && r[0] != '('
  {
    match v
    case Text(s) => "'" + s + "'"
    case Null => "null"
    case List(items) => "(" + Join(",", AtomTexts(items)) + ")"
    case Scalar(n) => NumText(n)
  }

  /** A value whose rendering can be read back: no string element inside a list. */
  predicate Unambiguous(v: Value)
  {
    v.List? ==> forall k :: 0 <= k < |v.items| ==> v.items[k].Number?
  }

  function ParseNum(t: string): Option<Num>
  {
    if t == "True" then Some(Bool(true))
    else if t == "False" then Some(Bool(false))
    else match Decimal.ParseInt(t)
      case Some(i) => Some(Int(i))
      case None => None
  }

  function ParseNums(ts: seq<string>): Option<seq<Atom>>
  {
    if |ts| == 0 then Some([])
    else match (ParseNum(ts[0]), ParseNums(ts[1..]))
      case (Some(n), Some(rest)) => Some([Number(n)] + rest)
      case _ => None
  }

  /** Reads the SQL text of a filter value back into the value it renders. */
  function ParseValue(r: string): Option<Value>
  {
    if |r| >= 2 && r[0] == '\'' && r[|r| - 1] == '\'' then Some(Text(r[1..|r| - 1]))
    else if r == "null" then Some(Null)
    else if |r| >= 2 && r[0] == '(' && r[|r| - 1] == ')' then
      var body := r[1..|r| - 1];
      if body == "" then Some(List([]))
      else match ParseNums(Split(body, ','))
        case Some(items) => Some(List(items))
        case None => None
    else match ParseNum(r)
      case Some(n) => Some(Scalar(n))
      case None => None
  }

  lemma NumRoundTrip(n: Num)
    ensures ParseNum(NumText(n)) == Some(n)
  {
    match n
    case Int(i) =>
      var t := Decimal.IntToString(i);
      assert t != "True" && t != "False" by {
        assert t[0] != 'T' && t[0] != 'F';
      }
    case Bool(b) =>
  }

  lemma {:induction false} NumsRoundTrip(items: seq<Atom>)
    requires forall k :: 0 <= k < |items| ==> items[k].Number?
    ensures ParseNums(AtomTexts(items)) == Some(items)
    decreases |items|
  {
    if |items| > 0 {
      var ts := AtomTexts(items);
      var n, rest := items[0].n, items[1..];
      assert ParseNum(ts[0]) == Some(n) by {
        assert ts[0] == NumText(n);
        NumRoundTrip(n);
      }
      assert ParseNums(ts[1..]) == Some(rest) by {
        assert ts[1..] == AtomTexts(rest);
        NumsRoundTrip(rest);
      }
      ParseNumsCons(ts, n, rest);
      assert items == [Number(n)] + rest;
    }
  }

  lemma ParseNumsCons(ts: seq<string>, n: Num, rest: seq<Atom>)
    requires |ts| > 0 && ParseNum(ts[0]) == Some(n) && ParseNums(ts[1..]) == Some(rest)
    ensures ParseNums(ts) == Some([Number(n)] + rest)
  {
  }

  lemma TextRoundTrip(s: string)
    ensures ParseValue(RenderValue(Text(s))) == Some(Text(s))
  {
    var r := RenderValue(Text(s));
    assert r == "'" + s + "'";
    assert |r| >= 2 && r[0] == '\'' && r[|r| - 1] == '\'';
    assert r[1..|r| - 1] == s;
  }

  lemma ListRoundTrip(items: seq<Atom>)
    requires forall k :: 0 <= k < |items| ==> items[k].Number?
    ensures ParseValue(RenderValue(List(items))) == Some(List(items))
  {
    var texts := AtomTexts(items);
    var body := Join(",", texts);
    var r := RenderValue(List(items));
    assert r == "(" + body + ")";
    assert r[0] == '(' && r[|r| - 1] == ')' && r != "null";
    assert r[1..|r| - 1] == body;
    if |items| > 0 {
      forall k | 0 <= k < |texts|
        ensures ',' !in texts[k]
      {
        assert texts[k] == NumText(items[k].n);
      }
      JoinNonEmpty(",", texts);
      assert "," == [','];
      SplitJoin(texts, ',');
      NumsRoundTrip(items);
    }
  }

  lemma ScalarRoundTrip(n: Num)
    ensures ParseValue(RenderValue(Scalar(n))) == Some(Scalar(n))
  {
    var r := NumText(n);
    assert RenderValue(Scalar(n)) == r;
    assert r[0] != '\'' && r[0] != '(' && r != "null";
    NumRoundTrip(n);
  }

  /** Every value without string elements in a list is recovered from its
      SQL text: quoted text, `null`, a parenthesised list and a bare scalar
      never render alike. */
  lemma ValueRoundTrip(v: Value)
    requires Unambiguous(v)
    ensures ParseValue(RenderValue(v)) == Some(v)
  {
    match v
    case Text(s) => TextRoundTrip(s);
    case Null =>
    case List(items) => ListRoundTrip(items);
    case Scalar(n) => ScalarRoundTrip(n);
  }

  /** String elements are not quoted, so a comma inside one is indistinguishable
      from an element boundary. */
  lemma ListWordsCollide()
    ensures RenderValue(List([Word("a,b")])) == RenderValue(List([Word("a"), Word("b")]))
  {
    assert AtomTexts([Word("a"), Word("b")]) == ["a", "b"];
  }

  // ------------------------------------------------------------- filters

  /** One condition: `<column> <operator> <value>`. */
  function Fragment(op: string, column: string, v: Value): string
  {
    column + " " + op + " " + RenderValue(v)
  }

  function GroupFragments(op: string, conds: Conditions): (r: seq<string>)
    ensures |r| == |conds|
    ensures forall k :: 0 <= k < |conds| ==> r[k] == Fragment(op, conds[k].0, conds[k].1)
  {
    if |conds| == 0 then []
    else [Fragment(op, conds[0].0, conds[0].1)] + GroupFragments(op, conds[1..])
  }

  /** The number of conditions over all operator groups. */
  function ConditionCount(filters: Filters): nat
  {
    if |filters| == 0 then 0 else |filters[0].1| + ConditionCount(filters[1..])
  }

  /** All fragments of all groups, group after group. */
  function Fragments(filters: Filters): (r: seq<string>)
    ensures |r| == ConditionCount(filters)
    ensures forall k :: 0 <= k < |r| ==> |r[k]| > 0
  {
    if |filters| == 0 then []
    else GroupFragments(filters[0].0, filters[0].1) + Fragments(filters[1..])
  }

  /** Fragments follow the insertion order of the groups: the fragments of
      two consecutive runs of groups are the fragments of each, in turn. */
  lemma {:induction false} FragmentsAppend(f1: Filters, f2: Filters)
    ensures Fragments(f1 + f2) == Fragments(f1) + Fragments(f2)
    decreases |f1|
  {
    if |f1| == 0 {
      assert f1 + f2 == f2;
    } else {
      assert (f1 + f2)[0] == f1[0];
      assert (f1 + f2)[1..] == f1[1..] + f2;
      FragmentsAppend(f1[1..], f2);
    }
  }

  /** Within one group the fragments follow the insertion order of its conditions. */
  lemma FragmentsOfGroup(op: string, conds: Conditions)
    ensures |Fragments([(op, conds)])| == |conds|
    ensures forall k :: 0 <= k < |conds| ==>
      Fragments([(op, conds)])[k] == conds[k].0 + " " + op + " " + RenderValue(conds[k].1)
  {
    assert [(op, conds)][1..] == [];
    assert Fragments([(op, conds)]) == GroupFragments(op, conds) + [];
  }

  lemma {:induction false} JoinNonEmpty(sep: string, parts: seq<string>)
    requires forall k :: 0 <= k < |parts| ==> |parts[k]| > 0
    ensures Join(sep, parts) == "" <==> |parts| == 0
    decreases |parts|
  {
    if |parts| > 1 {
      JoinNonEmpty(sep, parts[1..]);
    }
  }

  /** The conditions joined with ` AND `, after ` WHERE `, or nothing at all. */
  function WhereClause(filters: Filters): (w: string)
    ensures w == "" <==> ConditionCount(filters) == 0
  {
    var joined := Join(" AND ", Fragments(filters));
    JoinNonEmpty(" AND ", Fragments(filters));
    if joined != "" then " WHERE " + joined else ""
  }

  /** No condition in any group. */
  lemma NoConditionsNoWhere(filters: Filters)
    requires forall g :: g in filters ==> |g.1| == 0
    ensures WhereClause(filters) == ""
  {
    var k := 0;
    while k < |filters|
      invariant k <= |filters|
      invariant ConditionCount(filters[|filters| - k..]) == 0
    {
      var tail := filters[|filters| - k - 1..];
      assert tail[1..] == filters[|filters| - k..];
      assert filters[|filters| - k - 1] in filters;
      k := k + 1;
    }
    assert filters[0..] == filters;
  }

  // ------------------------------------------------------------- columns

  function ColumnList(columns: Columns): string
  {
    match columns
    case Names(names) => Join(",", names)
    case Verbatim(text) => text
  }

  /** A list of column names is joined with `,` and no space: splitting the
      column list at `,` gives the names back. */
  lemma ColumnsRoundTrip(names: seq<string>)
    requires |names| >= 1
    requires forall k :: 0 <= k < |names| ==> ',' !in names[k]
    ensures Split(ColumnList(Names(names)), ',') == names
  {
    assert "," == [','];
    SplitJoin(names, ',');
  }

  // ------------------------------------------------------------- options

  /** The option clauses appended after the filter clause. */
  datatype Clause = OrderRandom | OrderBy(column: string) | Descending | Limit(n: int)

  /** The fixed position of each clause kind in the query. */
  function Rank(c: Clause): nat
  {
    match c
    case OrderRandom => 0
    case OrderBy(_) => 1
    case Descending => 2
    case Limit(_) => 3
  }

  /** The option clauses a call appends, in the order the code appends them. */
  function Clauses(random: bool, orderBy: Option<string>, ascending: bool, limit: int): seq<Clause>
  {
    (if random then [OrderRandom] else [])
    + (if orderBy.Some? && orderBy.value != "" then [OrderBy(orderBy.value)] else [])
    + (if !ascending then [Descending] else [])
    + (if limit != 0 then [Limit(limit)] else [])
  }

  /** Each option clause is appended exactly when its own argument asks for it:
      random ordering when `random` is set, `ORDER BY` for a non-empty column,
      `DESC` whenever `ascending` is false (with or without an ordering), and
      `LIMIT` with the given count whenever it is non-zero. */
  lemma ClausesPresence(random: bool, orderBy: Option<string>, ascending: bool, limit: int)
    ensures OrderRandom in Clauses(random, orderBy, ascending, limit) <==> random
    ensures forall column :: OrderBy(column) in Clauses(random, orderBy, ascending, limit)
              <==> orderBy == Some(column) && column != ""
    ensures Descending in Clauses(random, orderBy, ascending, limit) <==> !ascending
    ensures forall n :: Limit(n) in Clauses(random, orderBy, ascending, limit) <==> limit != 0 && n == limit
  {
  }

  /** The option clauses always come in the fixed order random ordering,
      `ORDER BY`, `DESC`, `LIMIT`, each at most once. */
  lemma ClausesOrder(random: bool, orderBy: Option<string>, ascending: bool, limit: int)
    ensures var cs := Clauses(random, orderBy, ascending, limit);
      forall i, j :: 0 <= i < j < |cs| ==> Rank(cs[i]) < Rank(cs[j])
  {
  }

  function ClauseText(c: Clause): string
  {
    match c
    case OrderRandom => " ORDER BY random()"
    case OrderBy(column) => " ORDER BY " + column
    case Descending => " DESC"
    case Limit(n) => " LIMIT " + Decimal.IntToString(n)
  }

  function ClausesText(cs: seq<Clause>): string
  {
    if |cs| == 0 then "" else ClauseText(cs[0]) + ClausesText(cs[1..])
  }

  // --------------------------------------------------------------- query

  /** The statement `select` builds and hands to `execute`; `QueryShape`
      describes what follows the table. */
  function SelectQuery(q: SelectSpec): (r: string)
    ensures StartsWith(r, "SELECT " + ColumnList(q.columns) + " FROM " + q.table)
  {
    PrefixOfConcat("SELECT " + ColumnList(q.columns) + " FROM " + q.table, WhereClause(q.filters),
                   ClausesText(Clauses(q.random, q.orderBy, q.ascending, q.limit)));
    "SELECT " + ColumnList(q.columns) + " FROM " + q.table
    + WhereClause(q.filters)
    + ClausesText(Clauses(q.random, q.orderBy, q.ascending, q.limit))
  }

  /** The `WHERE` clause of a single condition. */
  lemma WhereOfOne(op: string, column: string, v: Value)
    ensures WhereClause([(op, [(column, v)])]) == " WHERE " + column + " " + op + " " + RenderValue(v)
  {
    FragmentsOfGroup(op, [(column, v)]);
    var fs := Fragments([(op, [(column, v)])]);
    assert fs == [Fragment(op, column, v)];
  }

  /** `str` of a one-digit number is that digit. */
  lemma OneDigit(d: nat)
    requires d < 10
    ensures Decimal.IntToString(d) == [Decimal.DigitChar(d)]
  {
  }

  lemma LimitText(n: nat, text: string)
    requires n < 10 && text == [Decimal.DigitChar(n)]
    ensures ClausesText([Limit(n)]) == " LIMIT " + text
  {
    OneDigit(n);
    assert [Limit(n)][1..] == [];
  }

  /** The query put together from its column list, table, filter clause and
      option clauses, for the worked examples below. */
  lemma QueryParts(q: SelectSpec, columns: string, where: string, options: string)
    requires ColumnList(q.columns) == columns
    requires WhereClause(q.filters) == where
    requires ClausesText(Clauses(q.random, q.orderBy, q.ascending, q.limit)) == options
    ensures SelectQuery(q) == "SELECT " + columns + " FROM " + q.table + where + options
  {
  }

  /** Every option clause is a space and then a keyword that does not start
      with `W`. */
  lemma ClauseTextStart(c: Clause)
    ensures |ClauseText(c)| >= 2 && ClauseText(c)[0] == ' ' && ClauseText(c)[1] != 'W'
  {
    var t := ClauseText(c);
    match c
    case OrderRandom =>
    case OrderBy(column) =>
      assert t == " ORDER BY " + column;
      assert t[1] == " ORDER BY "[1];
    case Descending =>
    case Limit(n) =>
      assert t == " LIMIT " + Decimal.IntToString(n);
      assert t[1] == " LIMIT "[1];
  }

  /** So a non-empty list of option clauses starts with the first one's text,
      and never with ` WHERE `. */
  lemma ClausesTextStart(cs: seq<Clause>)
    ensures ClausesText(cs) == "" <==> cs == []
    ensures cs != [] ==> StartsWith(ClausesText(cs), ClauseText(cs[0]))
    ensures cs != [] ==> !StartsWith(ClausesText(cs), " WHERE ")
  {
    if cs != [] {
      var t := ClauseText(cs[0]);
      var all := ClausesText(cs);
      assert all == t + ClausesText(cs[1..]);
      ClauseTextStart(cs[0]);
      assert all[..|t|] == t;
      assert all[1] == t[1];
      NotWhere(all);
    }
  }

  /** A text whose second character is not `W` does not start with ` WHERE `. */
  lemma NotWhere(s: string)
    requires |s| >= 2 && s[1] != 'W'
    ensures !StartsWith(s, " WHERE ")
  {
    var w := " WHERE ";
    assert w[1] == 'W';
    if |s| >= |w| {
      assert s[..|w|][1] == s[1];
    }
  }

  lemma Regroup(a: string, b: string, c: string)
    ensures (a + b) + c == a + (b + c)
  {
  }

  /** A text starts with what was put in front of it. */
  lemma PrefixOfConcat(p: string, x: string, y: string)
    ensures StartsWith((p + x) + y, p)
  {
    assert ((p + x) + y)[..|p|] == p;
  }

  /** A text ends with what was put after it. */
  lemma SuffixOfConcat(p: string, x: string)
    ensures EndsWith(p + x, x)
  {
    assert (p + x)[|p|..] == x;
  }

  /** The text after a prefix. */
  lemma AfterPrefix(a: string, b: string)
    ensures StartsWith(a + b, a) && (a + b)[|a|..] == b
  {
    assert (a + b)[..|a|] == a;
  }

  /** The statement `select` builds starts with `SELECT <columns> FROM
      <table>`. What follows is empty exactly when no group holds a condition
      and no option clause applies; it starts with ` WHERE ` exactly when some
      group holds a condition; and without conditions it starts with the
      first option clause. In every case it starts with the `WHERE` clause,
      and the statement ends with the option clauses. */
  lemma QueryShape(q: SelectSpec)
    ensures var head := "SELECT " + ColumnList(q.columns) + " FROM " + q.table;
      var cs := Clauses(q.random, q.orderBy, q.ascending, q.limit);
      var rest := SelectQuery(q)[|head|..];
      && StartsWith(SelectQuery(q), head)
      && (rest == "" <==> ConditionCount(q.filters) == 0 && cs == [])
      && (StartsWith(rest, " WHERE ") <==> ConditionCount(q.filters) > 0)
      && (ConditionCount(q.filters) == 0 && cs != [] ==> StartsWith(rest, ClauseText(cs[0])))
      && StartsWith(rest, WhereClause(q.filters))
      && EndsWith(SelectQuery(q), ClausesText(cs))
  {
    var head := "SELECT " + ColumnList(q.columns) + " FROM " + q.table;
    var cs := Clauses(q.random, q.orderBy, q.ascending, q.limit);
    var tail := WhereClause(q.filters) + ClausesText(cs);
    assert SelectQuery(q) == (head + WhereClause(q.filters)) + ClausesText(cs);
    Regroup(head, WhereClause(q.filters), ClausesText(cs));
    AfterPrefix(head, tail);
    TailEmpty(q.filters, cs);
    TailWhere(q.filters, cs);
    if ConditionCount(q.filters) == 0 && cs != [] {
      TailFirstClause(q.filters, cs);
    }
    AfterPrefix(WhereClause(q.filters), ClausesText(cs));
    SuffixOfConcat(head + WhereClause(q.filters), ClausesText(cs));
  }

  /** What follows the table, the filter clause and then the option clauses,
      is empty exactly when there is neither ... */
  lemma TailEmpty(filters: Filters, cs: seq<Clause>)
    ensures WhereClause(filters) + ClausesText(cs) == "" <==> ConditionCount(filters) == 0 && cs == []
  {
    ClausesTextStart(cs);
  }

  /** ... starts with ` WHERE ` exactly when there are conditions ... */
  lemma TailWhere(filters: Filters, cs: seq<Clause>)
    ensures StartsWith(WhereClause(filters) + ClausesText(cs), " WHERE ") <==> ConditionCount(filters) > 0
  {
    var w := WhereClause(filters);
    var opts := ClausesText(cs);
    if w != "" {
      var joined := Join(" AND ", Fragments(filters));
      assert w == " WHERE " + joined;
      PrefixOfConcat(" WHERE ", joined, opts);
    } else {
      ClausesTextStart(cs);
      assert w + opts == opts;
    }
  }

  /** ... and otherwise starts with the first option clause. */
  lemma TailFirstClause(filters: Filters, cs: seq<Clause>)
    requires ConditionCount(filters) == 0 && cs != []
    ensures StartsWith(WhereClause(filters) + ClausesText(cs), ClauseText(cs[0]))
  {
    ClausesTextStart(cs);
    assert WhereClause(filters) + ClausesText(cs) == ClausesText(cs);
  }

  /** The options of a call that leaves them at their defaults: just ` LIMIT 1`. */
  lemma DefaultLimitText()
    ensures ClausesText(Clauses(false, None, true, 1)) == " LIMIT 1"
  {
    assert Clauses(false, None, true, 1) == [Limit(1)];
    assert Decimal.DigitChar(1) == '1';
    LimitText(1, "1");
  }

  /** `select("t", filters={"=": {"a": 1}}, limit=5)`. */
  lemma ExampleEqualityAndLimit(q: SelectSpec)
    requires q == SelectSpec("t", Verbatim("*"), [("=", [("a", Scalar(Int(1)))])], None, true, 5, false)
    ensures SelectQuery(q) == "SELECT " + "*" + " FROM " + "t" + " WHERE a = 1" + " LIMIT 5"
  {
    assert WhereClause(q.filters) == " WHERE a = 1" by {
      OneDigit(1);
      assert Decimal.DigitChar(1) == '1';
      WhereOfOne("=", "a", Scalar(Int(1)));
    }
    assert ClausesText(Clauses(false, None, true, 5)) == " LIMIT 5" by {
      assert Clauses(false, None, true, 5) == [Limit(5)];
      assert Decimal.DigitChar(5) == '5';
      LimitText(5, "5");
    }
    QueryParts(q, "*", " WHERE a = 1", " LIMIT 5");
  }

  /** A string value is quoted. */
  lemma ExampleQuotedText(q: SelectSpec)
    requires q == SelectSpec("t", Verbatim("*"), [("=", [("name", Text("bob"))])], None, true, 1, false)
    ensures SelectQuery(q) == "SELECT " + "*" + " FROM " + "t" + " WHERE name = 'bob'" + " LIMIT 1"
  {
    assert WhereClause(q.filters) == " WHERE name = 'bob'" by {
      WhereOfOne("=", "name", Text("bob"));
    }
    DefaultLimitText();
    QueryParts(q, "*", " WHERE name = 'bob'", " LIMIT 1");
  }

  /** An integer is not quoted. */
  lemma ExampleBareInteger(q: SelectSpec)
    requires q == SelectSpec("t", Verbatim("*"), [("=", [("age", Scalar(Int(5)))])], None, true, 1, false)
    ensures SelectQuery(q) == "SELECT " + "*" + " FROM " + "t" + " WHERE age = 5" + " LIMIT 1"
  {
    assert WhereClause(q.filters) == " WHERE age = 5" by {
      OneDigit(5);
      assert Decimal.DigitChar(5) == '5';
      WhereOfOne("=", "age", Scalar(Int(5)));
    }
    DefaultLimitText();
    QueryParts(q, "*", " WHERE age = 5", " LIMIT 1");
  }

  lemma IdsText()
    ensures RenderValue(List([Number(Int(1)), Number(Int(2)), Number(Int(3))])) == "(1,2,3)"
  {
    OneDigit(1);
    OneDigit(2);
    OneDigit(3);
    assert Decimal.DigitChar(1) == '1' && Decimal.DigitChar(2) == '2' && Decimal.DigitChar(3) == '3';
    assert AtomTexts([Number(Int(1)), Number(Int(2)), Number(Int(3))]) == ["1", "2", "3"];
    assert Join(",", ["1", "2", "3"]) == "1" + "," + "2" + "," + "3";
  }

  /** Conditions of consecutive groups are all joined by ` AND `, every
      condition of the first run before every condition of the second, each
      run in its own insertion order. */
  lemma WhereOfTwo(f1: Filters, f2: Filters)
    requires ConditionCount(f1) > 0 && ConditionCount(f2) > 0
    ensures WhereClause(f1 + f2) == WhereClause(f1) + " AND " + Join(" AND ", Fragments(f2))
  {
    FragmentsAppend(f1, f2);
    JoinAppend(" AND ", Fragments(f1), Fragments(f2));
  }

  lemma TitleIsNull()
    ensures Fragments([("is", [("title", Null)])]) == ["title is null"]
  {
    FragmentsOfGroup("is", [("title", Null)]);
    assert "title" + " " + "is" + " " + "null" == "title is null";
  }

  lemma IdInList()
    ensures Fragments([("in", [("id", List([Number(Int(1)), Number(Int(2)), Number(Int(3))]))])]) == ["id in (1,2,3)"]
  {
    IdsText();
    FragmentsOfGroup("in", [("id", List([Number(Int(1)), Number(Int(2)), Number(Int(3))]))]);
    assert "id" + " " + "in" + " " + "(1,2,3)" == "id in (1,2,3)";
  }

  /** Two groups, each with one condition, keep their insertion order. */
  lemma NullAndMembershipWhere(f: Filters)
    requires f == [("is", [("title", Null)]), ("in", [("id", List([Number(Int(1)), Number(Int(2)), Number(Int(3))]))])]
    ensures WhereClause(f) == " WHERE " + ("title is null" + " AND " + "id in (1,2,3)")
  {
    var g1: Filters := [("is", [("title", Null)])];
    var g2: Filters := [("in", [("id", List([Number(Int(1)), Number(Int(2)), Number(Int(3))]))])];
    TitleIsNull();
    IdInList();
    assert f == g1 + g2;
    assert ConditionCount(g1) == 1 && ConditionCount(g2) == 1;
    WhereOfTwo(g1, g2);
    assert Join(" AND ", ["id in (1,2,3)"]) == "id in (1,2,3)";
  }

  /** `None` becomes `null`; a list becomes a parenthesised, unquoted, comma-separated list;
      groups and conditions keep their insertion order, joined by `AND`. */
  lemma ExampleNullAndMembership(q: SelectSpec)
    requires q == SelectSpec("mytable", Verbatim("*"),
              [("is", [("title", Null)]), ("in", [("id", List([Number(Int(1)), Number(Int(2)), Number(Int(3))]))])],
              None, true, 0, false)
    ensures SelectQuery(q) == "SELECT " + "*" + " FROM " + "mytable" + " WHERE " + "title is null" + " AND " + "id in (1,2,3)"
  {
    NullAndMembershipWhere(q.filters);
    assert Clauses(false, None, true, 0) == [];
    QueryParts(q, "*", " WHERE " + ("title is null" + " AND " + "id in (1,2,3)"), "");
  }

  /** Without filters there is no `WHERE`, and the default limit of 1 ends the query. */
  lemma ExampleDefaults(table: string)
    ensures SelectQuery(Defaults(table)) == "SELECT " + "*" + " FROM " + table + " LIMIT 1"
  {
    DefaultLimitText();
    assert WhereClause([]) == "";
    QueryParts(Defaults(table), "*", "", " LIMIT 1");
  }

  /** The option clauses keep the code's order, which is not the order shown in
      the docstring: random ordering comes before the limit. */
  lemma ExampleRandomBeforeLimit(q: SelectSpec)
    requires q == SelectSpec("t", Names(["a", "b"]), [], None, true, 10, true)
    ensures SelectQuery(q) == "SELECT " + "a,b" + " FROM " + "t" + " ORDER BY random()" + " LIMIT 10"
  {
    assert ClausesText(Clauses(true, None, true, 10)) == " ORDER BY random()" + " LIMIT 10" by {
      assert Clauses(true, None, true, 10) == [OrderRandom, Limit(10)];
      assert Decimal.DigitChar(1) == '1' && Decimal.DigitChar(0) == '0';
      assert Decimal.NatDigits(1) == "1";
      assert Decimal.IntToString(10) == "10";
      assert [Limit(10)][1..] == [];
      assert ClausesText([Limit(10)]) == " LIMIT 10";
      assert [OrderRandom, Limit(10)][1..] == [Limit(10)];
    }
    assert ColumnList(q.columns) == "a,b" by {
      assert Join(",", ["a", "b"]) == "a,b";
    }
    assert WhereClause([]) == "";
    QueryParts(q, "a,b", "", " ORDER BY random()" + " LIMIT 10");
  }

  /** `DESC` is appended even when nothing orders the rows. */
  lemma ExampleDescWithoutOrder(table: string)
    ensures SelectQuery(SelectSpec(table, Verbatim("*"), [], None, false, 1, false))
         == "SELECT " + "*" + " FROM " + table + " DESC" + " LIMIT 1"
  {
    DescLimitText();
    assert WhereClause([]) == "";
    QueryParts(SelectSpec(table, Verbatim("*"), [], None, false, 1, false), "*", "", " DESC" + " LIMIT 1");
  }

  lemma DescLimitText()
    ensures ClausesText(Clauses(false, None, false, 1)) == " DESC" + " LIMIT 1"
  {
    assert Clauses(false, None, false, 1) == [Descending, Limit(1)];
    assert Decimal.DigitChar(1) == '1';
    LimitText(1, "1");
    assert [Descending, Limit(1)][1..] == [Limit(1)];
  }
}

=== FILE: s3_url.dfy ===
/** `S3Url` and `S3Helper.truncate_s3_path` (pyneed/cloud/aws/s3_helper.py):
    taking an `s3://bucket/key[?query]` URL apart and putting it back
    together, following the generic syntax of section 3 of RFC 3986 as
    CPython's `urllib.parse` applies it to a scheme without `;params`, with
    fragments left unsplit. */
module S3Path {
  import opened Base
  import opened Strings

  /** The characters `urlsplit` deletes wherever they occur, from CPython
      3.7.11 on: tab, carriage return, line feed. */
  predicate Unsafe(c: char)
  {
    c == '\t' || c == '\r' || c == '\n'
  }

  predicate NoUnsafe(s: string)
  {
    forall k :: 0 <= k < |s| ==> !Unsafe(s[k])
  }

  function RemoveUnsafe(s: string): (r: string)
    ensures NoUnsafe(r)
    ensures NoUnsafe(s) ==> r == s
  {
    if |s| == 0 then "" else (if Unsafe(s[0]) then "" else [s[0]]) + RemoveUnsafe(s[1..])
  }

  /** The characters that end the authority (section 3.2 of RFC 3986). The
      `#` is among them even though fragments are not split off. */
  predicate IsDelimiter(c: char)
  {
    c == '/' || c == '?' || c == '#'
  }

  /** Where the authority ends: at the first delimiter, or at the end. */
  function AuthorityEnd(s: string): (i: nat)
    ensures i <= |s|
    ensures forall k :: 0 <= k < i ==> !IsDelimiter(s[k])
    ensures i < |s| ==> IsDelimiter(s[i])
  {
    if |s| == 0 || IsDelimiter(s[0]) then 0 else 1 + AuthorityEnd(s[1..])
  }

  /** Brackets in the authority must come in pairs (an IPv6 literal). */
  predicate BracketsMatch(netloc: string)
  {
    ('[' in netloc) == (']' in netloc)
  }

  /** The parts of an `s3` URL as `urlparse` keeps them: the scheme is always
      `s3`, and params and fragment are always empty. */
  datatype S3Url = S3Url(netloc: string, path: string, query: string)

  /** `urlparse` raises `ValueError("Invalid IPv6 URL")`. */
  datatype UrlError = InvalidIPv6

  /** The scheme and the `//` that introduces the authority. */
  const PREFIX: string := "s3://"

  /** `after.split('?', 1)` when `after` holds a `?`, and otherwise `after`
      with an empty query. The path is the text before the first `?`. */
  function SplitQuery(after: string): (pq: (string, string))
    ensures '?' !in pq.0 && pq.0 <= after
    ensures '?' in after ==> after == pq.0 + "?" + pq.1
    ensures '?' !in after ==> after == pq.0 && pq.1 == ""
  {
    if '?' in after then
      var j := FirstIndex(after, '?');
      assert after == after[..j] + "?" + after[j + 1..];
      (after[..j], after[j + 1..])
    else
      (after, "")
  }

  /** `SplitQuery` finds exactly the path and query put around the first `?`. */
  lemma SplitQueryOf(p: string, q: string)
    requires '?' !in p
    ensures SplitQuery(p + "?" + q) == (p, q)
    ensures SplitQuery(p) == (p, "")
  {
    var s := p + "?" + q;
    FirstIndexAfter(p, '?', q);
    assert s == p + ['?'] + q;
    assert s[..|p|] == p && s[|p| + 1..] == q;
  }

  /** The authority, path and query of the text after `s3://`: the authority
      runs to the first delimiter, and `SplitQuery` divides the rest. */
  function Components(rest: string): (u: S3Url)
    ensures forall k :: 0 <= k < |u.netloc| ==> !IsDelimiter(u.netloc[k])
    ensures '?' !in u.path
  {
    var i := AuthorityEnd(rest);
    var pq := SplitQuery(rest[i..]);
    S3Url(rest[..i], pq.0, pq.1)
  }

  /** The path `Components` finds starts at the delimiter that ended the
      authority, if any. */
  lemma ComponentsPathStart(rest: string)
    ensures Components(rest).path == "" || IsDelimiter(Components(rest).path[0])
  {
    var i := AuthorityEnd(rest);
    var pq := SplitQuery(rest[i..]);
    assert pq.0 == "" || pq.0[0] == rest[i];
  }

  /** Put side by side, the parts `Components` finds give back the text, with
      a `?` between path and query unless there was none. */
  lemma ComponentsRecompose(rest: string)
    ensures rest == Components(rest).netloc + Components(rest).path
         || rest == Components(rest).netloc + Components(rest).path + "?" + Components(rest).query
  {
    var i := AuthorityEnd(rest);
    var pq := SplitQuery(rest[i..]);
    assert rest == rest[..i] + rest[i..];
    PrependToSplit(rest[..i], rest[i..], pq.0, pq.1);
  }

  /** Putting the same authority in front keeps the shape of a split. */
  lemma PrependToSplit(n: string, after: string, p: string, q: string)
    requires after == p || after == p + "?" + q
    ensures n + after == n + p || n + after == n + p + "?" + q
  {
    if after != p {
      assert n + after == n + p + "?" + q;
    }
  }

  /** `S3Url(url)`, that is `urlparse(url, allow_fragments=False)`, for a URL
      starting with `s3://`: the unsafe characters are deleted, the rest is
      taken apart by `Components`, and unpaired brackets in the authority are
      an error. */
  function Parse(url: string): (r: Result<S3Url, UrlError>)
    requires StartsWith(url, PREFIX)
    ensures r.Success? ==> BracketsMatch(r.value.netloc)
    ensures r.Failure? ==> !BracketsMatch(Components(RemoveUnsafe(url[|PREFIX|..])).netloc)
  {
    var u := Components(RemoveUnsafe(url[|PREFIX|..]));
    if !BracketsMatch(u.netloc) then Failure(InvalidIPv6) else Success(u)
  }

  /** `S3Url.bucket`: the authority. The string form writes a non-empty
      bucket right after `s3://`. */
  function Bucket(u: S3Url): (b: string)
    ensures b != "" ==> StartsWith(ToString(u), PREFIX + b)
  {
    u.netloc
  }

  /** `S3Url.key`: the path without its leading slashes, followed by `?` and
      the query when the query is not empty. A key never starts with `/`, and
      for a path without `?` it holds a `?` exactly when there is a query. */
  function Key(u: S3Url): (k: string)
    ensures k == "" || k[0] != '/'
    ensures '?' !in u.path ==> ('?' in k <==> u.query != "")
  {
    var p := LStrip(u.path, '/');
    assert '?' in p ==> '?' in u.path by {
      if '?' in p {
        var j :| 0 <= j < |p| && p[j] == '?';
        assert u.path[|u.path| - |p| + j] == '?';
      }
    }
    if u.query != "" then p + "?" + u.query else p
  }

  /** `str(S3Url)`, that is `geturl()`, with the `urlunsplit` of CPython 3.7.11 or later 3.7:
      the scheme `s3` is not among those known to take an authority, so `//`
      is written only before a non-empty authority, and a path after an
      authority gets a leading `/`; an empty query is dropped together with
      its `?`. The result starts with `s3:`, and with `s3://<bucket>` when
      the bucket is not empty. */
  function ToString(u: S3Url): (r: string)
    ensures StartsWith(r, "s3:")
    ensures u.netloc != "" ==> StartsWith(r, PREFIX + u.netloc)
  {
    var p :=
      if u.netloc != "" then "//" + u.netloc + (if u.path != "" && u.path[0] != '/' then "/" + u.path else u.path)
      else u.path;
    var r := "s3:" + p + (if u.query != "" then "?" + u.query else "");
    assert r[..3] == "s3:";
    assert u.netloc != "" ==> r[..|PREFIX + u.netloc|] == PREFIX + u.netloc;
    r
  }

  /** Only an authority with a character beyond ASCII goes through the NFKC
      check of `urlsplit`, which is not modelled. */
  predicate IsAscii(c: char)
  {
    (c as int) < 128
  }

  /** A bucket name `urlparse` reads back as the whole authority. */
  predicate PlainBucket(b: string)
  {
    && (forall k :: 0 <= k < |b| ==> !IsDelimiter(b[k]) && IsAscii(b[k]))
    && BracketsMatch(b)
  }

  lemma {:induction false} AuthorityEndOf(b: string, r: string)
    requires forall k :: 0 <= k < |b| ==> !IsDelimiter(b[k])
    requires r == "" || IsDelimiter(r[0])
    ensures AuthorityEnd(b + r) == |b|
    decreases |b|
  {
    if |b| > 0 {
      assert (b + r)[1..] == b[1..] + r;
      AuthorityEndOf(b[1..], r);
    } else {
      assert b + r == r;
    }
  }

  /** `Components` is determined by the text: an authority without
      delimiters followed by text that starts at a delimiter. */
  lemma ComponentsOf(b: string, after: string)
    requires forall k :: 0 <= k < |b| ==> !IsDelimiter(b[k])
    requires after == "" || IsDelimiter(after[0])
    ensures Components(b + after) == S3Url(b, SplitQuery(after).0, SplitQuery(after).1)
  {
    AuthorityEndOf(b, after);
    assert (b + after)[..|b|] == b;
    assert (b + after)[|b|..] == after;
  }

  /** The bucket is the authority: the text between `//` and the first `/`,
      `?` or `#`; the rest is divided at its first `?`. */
  lemma ParseOf(b: string, after: string)
    requires PlainBucket(b) && NoUnsafe(b + after)
    requires after == "" || IsDelimiter(after[0])
    ensures StartsWith(PREFIX + b + after, PREFIX)
    ensures Parse(PREFIX + b + after) == Success(S3Url(b, SplitQuery(after).0, SplitQuery(after).1))
  {
    var url := PREFIX + b + after;
    assert url == PREFIX + (b + after);
    assert url[|PREFIX|..] == b + after;
    ComponentsOf(b, after);
  }

  /** Stripping the slash put in front of a text that does not start with one. */
  lemma LStripSlash(t: string)
    requires t == "" || t[0] != '/'
    ensures LStrip("/" + t, '/') == t
  {
    var s := "/" + t;
    assert s[0] == '/' && s[1..] == t;
    assert LStrip(t, '/') == t;
  }

  /** The key that follows the bucket's slash comes back intact, provided it
      does not start with `/` and a `?` in it is followed by something. */
  predicate KeyRoundTrips(k: string)
  {
    && (k == "" || k[0] != '/')
    && ('?' in k ==> SplitQuery(k).1 != "")
  }

  lemma KeyAfterSlash(b: string, k: string)
    requires KeyRoundTrips(k)
    ensures Key(S3Url(b, SplitQuery("/" + k).0, SplitQuery("/" + k).1)) == k
  {
    var pq := SplitQuery(k);
    if '?' in k {
      assert "/" + k == ("/" + pq.0) + "?" + pq.1;
      SplitQueryOf("/" + pq.0, pq.1);
      LStripSlash(pq.0);
    } else {
      SplitQueryOf("/" + k, "");
      LStripSlash(k);
    }
  }

  /** The key comes back exactly as written after the bucket's slash, `?` and
      `#` included. */
  lemma KeyRoundTrip(b: string, k: string)
    requires PlainBucket(b) && NoUnsafe(b + "/" + k)
    requires KeyRoundTrips(k)
    ensures StartsWith(PREFIX + b + "/" + k, PREFIX)
    ensures Parse(PREFIX + b + "/" + k).Success?
    ensures Key(Parse(PREFIX + b + "/" + k).value) == k
  {
    assert PREFIX + b + "/" + k == PREFIX + b + ("/" + k);
    assert b + "/" + k == b + ("/" + k);
    ParseOf(b, "/" + k);
    KeyAfterSlash(b, k);
  }

  /** A URL of the form `s3://bucket[/path][?query]` with a non-empty bucket
      and, when a `?` is present, a non-empty query. */
  predicate RoundTrips(b: string, r: string)
  {
    && b != "" && PlainBucket(b) && NoUnsafe(b + r)
    && (r == "" || r[0] == '/' || r[0] == '?')
    && ('?' in r ==> SplitQuery(r).1 != "")
  }

  lemma ToStringOf(b: string, r: string)
    requires b != ""
    requires r == "" || r[0] == '/' || r[0] == '?'
    requires '?' in r ==> SplitQuery(r).1 != ""
    ensures ToString(S3Url(b, SplitQuery(r).0, SplitQuery(r).1)) == PREFIX + b + r
  {
    var pq := SplitQuery(r);
    assert pq.0 == "" || pq.0[0] == '/';
    if '?' in r {
      assert ToString(S3Url(b, pq.0, pq.1)) == "s3:" + ("//" + b + pq.0) + ("?" + pq.1);
    } else {
      assert ToString(S3Url(b, pq.0, pq.1)) == "s3:" + ("//" + b + pq.0) + "";
    }
  }

  /** The string form gives back the URL it was parsed from. */
  lemma StringRoundTrip(b: string, r: string)
    requires RoundTrips(b, r)
    ensures StartsWith(PREFIX + b + r, PREFIX)
    ensures Parse(PREFIX + b + r).Success?
    ensures ToString(Parse(PREFIX + b + r).value) == PREFIX + b + r
  {
    ParseOf(b, r);
    ToStringOf(b, r);
  }

  /** The example in the class's documentation, taken apart. */
  lemma DocExampleParses(url: string)
    requires url == "s3://bucket/hello/world"
    ensures StartsWith(url, PREFIX)
    ensures Parse(url) == Success(S3Url("bucket", "/hello/world", ""))
  {
    var b, p := "bucket", "/hello/world";
    assert url == PREFIX + b + p;
    assert NoUnsafe(b + p) && p[0] == '/' && '?' !in p;
    ParseOf(b, p);
    SplitQueryOf(p, "");
  }

  /** The example in the class's documentation: its bucket and key ... */
  lemma DocExample(u: S3Url)
    requires u == S3Url("bucket", "/hello/world", "")
    ensures Bucket(u) == "bucket"
    ensures Key(u) == "hello/world"
  {
    assert u.path == "/" + "hello/world";
    LStripSlash("hello/world");
  }

  /** ... and its string form, which is the URL it came from. */
  lemma DocExampleString(u: S3Url)
    requires u == S3Url("bucket", "/hello/world", "")
    ensures ToString(u) == "s3://bucket/hello/world"
  {
    var b, r := "bucket", "/hello/world";
    ToStringSlashPath(b, r);
    assert PREFIX + b + r == "s3://bucket/hello/world";
  }

  /** A bucket and a path that starts with `/`, without query, are written
      side by side after `s3://`. */
  lemma ToStringSlashPath(b: string, r: string)
    requires b != "" && r != "" && r[0] == '/'
    ensures ToString(S3Url(b, r, "")) == PREFIX + b + r
  {
    assert ToString(S3Url(b, r, "")) == "s3:" + ("//" + b + r) + "";
  }

  /** `#` does not start a fragment: it stays in the key. */
  lemma HashStaysInKey(url: string)
    requires url == "s3://b/a#c"
    ensures StartsWith(url, PREFIX) && Parse(url).Success?
    ensures Key(Parse(url).value) == "a#c"
  {
    var b, k := "b", "a#c";
    assert url == PREFIX + b + ("/" + k);
    assert '?' !in k && '?' !in "/" + k;
    assert NoUnsafe(b + ("/" + k));
    ParseOf(b, "/" + k);
    KeyAfterSlash(b, k);
  }

  /** A `?` with nothing after it is lost: `s3://b/k?` parses to the same
      parts as `s3://b/k`, so it has the same key and the string form
      `s3://b/k`. */
  lemma TrailingQuestionMarkLost(b: string, k: string)
    requires PlainBucket(b) && NoUnsafe(b + "/" + k + "?")
    requires '?' !in k
    ensures StartsWith(PREFIX + b + "/" + k + "?", PREFIX) && StartsWith(PREFIX + b + "/" + k, PREFIX)
    ensures Parse(PREFIX + b + "/" + k + "?") == Parse(PREFIX + b + "/" + k)
  {
    var p := "/" + k;
    assert PREFIX + b + "/" + k + "?" == PREFIX + b + (p + "?" + "");
    assert b + "/" + k + "?" == b + (p + "?" + "");
    assert PREFIX + b + "/" + k == PREFIX + b + p;
    assert NoUnsafe(b + p) by {
      assert b + p == (b + "/" + k + "?")[..|b + p|];
    }
    ParseOf(b, p + "?" + "");
    ParseOf(b, p);
    SplitQueryOf(p, "");
  }

  /** Without a bucket: `s3:///k` has an empty bucket and the path `/k`. */
  lemma EmptyBucketParses(k: string)
    requires NoUnsafe("/" + k) && '?' !in k
    ensures StartsWith(PREFIX + "/" + k, PREFIX)
    ensures Parse(PREFIX + "/" + k) == Success(S3Url("", "/" + k, ""))
  {
    var p := "/" + k;
    assert PREFIX + "/" + k == PREFIX + "" + p;
    assert "" + p == p;
    ParseOf("", p);
    SplitQueryOf(p, "");
  }

  /** ... and then the `//` is not written back: the string form of
      `s3:///k` is `s3:/k` ... */
  lemma EmptyBucketLosesSlashes(k: string)
    requires k == "" || k[0] != '/'
    ensures ToString(S3Url("", "/" + k, "")) == "s3:/" + k
  {
    var p := "/" + k;
    assert |p| < 2 || p[1] != '/';
    assert ToString(S3Url("", p, "")) == "s3:" + p + "";
    assert "s3:" + p + "" == "s3:" + p;
    assert "s3:" + p == ("s3:" + "/") + k;
    assert "s3:" + "/" == "s3:/";
  }

  /** An empty bucket followed by a path that starts with `//` is not written
      back with its `//`: the string form of `s3:////k` is `s3://k`, in which
      `k` is the bucket. */
  lemma DoubleSlashPathBecomesBucket(k: string)
    requires PlainBucket(k) && NoUnsafe("//" + k)
    ensures StartsWith(PREFIX + "//" + k, PREFIX)
    ensures Parse(PREFIX + "//" + k) == Success(S3Url("", "//" + k, ""))
    ensures ToString(Parse(PREFIX + "//" + k).value) == PREFIX + k
    ensures k != "" ==> Parse(PREFIX + k) == Success(S3Url(k, "", ""))
  {
    DoubleSlashParses(k);
    DoubleSlashString(k);
    if k != "" {
      assert NoUnsafe(k) by {
        forall j | 0 <= j < |k| ensures !Unsafe(k[j]) {
          assert k[j] == ("//" + k)[j + 2];
        }
      }
      BareBucketParses(k);
    }
  }

  lemma DoubleSlashParses(k: string)
    requires PlainBucket(k) && NoUnsafe("//" + k)
    ensures StartsWith(PREFIX + "//" + k, PREFIX)
    ensures Parse(PREFIX + "//" + k) == Success(S3Url("", "//" + k, ""))
  {
    var p := "//" + k;
    assert '?' !in p by {
      forall j | 0 <= j < |p| ensures p[j] != '?' {
        if j >= 2 {
          assert p[j] == k[j - 2];
        }
      }
    }
    assert PREFIX + "//" + k == PREFIX + "" + p;
    assert "" + p == p;
    ParseOf("", p);
    SplitQueryOf(p, "");
  }

  lemma DoubleSlashString(k: string)
    ensures ToString(S3Url("", "//" + k, "")) == PREFIX + k
  {
    var p := "//" + k;
    assert ToString(S3Url("", p, "")) == "s3:" + p + "";
    assert "s3:" + p + "" == ("s3:" + "//") + k;
  }

  lemma BareBucketParses(k: string)
    requires PlainBucket(k) && NoUnsafe(k) && k != ""
    ensures StartsWith(PREFIX + k, PREFIX)
    ensures Parse(PREFIX + k) == Success(S3Url(k, "", ""))
  {
    assert PREFIX + k == PREFIX + k + "";
    assert k + "" == k;
    ParseOf(k, "");
    SplitQueryOf("", "");
  }

  /** ... while its key is still `k`. */
  lemma EmptyBucketKey(k: string)
    requires k == "" || k[0] != '/'
    ensures Key(S3Url("", "/" + k, "")) == k
  {
    LStripSlash(k);
  }

  /** A `#` right after the bucket ends the authority: `s3://b#x` has the
      bucket `b` and the path `#x`. */
  lemma HashAfterBucketParses(b: string, x: string)
    requires PlainBucket(b) && NoUnsafe(b + "#" + x) && '?' !in x
    ensures StartsWith(PREFIX + b + "#" + x, PREFIX)
    ensures Parse(PREFIX + b + "#" + x) == Success(S3Url(b, "#" + x, ""))
  {
    var p := "#" + x;
    assert PREFIX + b + "#" + x == PREFIX + b + p;
    assert b + "#" + x == b + p;
    ParseOf(b, p);
    SplitQueryOf(p, "");
  }

  /** ... and the path is written back after an added `/`: the string form of
      `s3://b#x` is `s3://b/#x` ... */
  lemma HashAfterBucketGainsSlash(b: string, x: string)
    requires b != ""
    ensures ToString(S3Url(b, "#" + x, "")) == PREFIX + b + "/#" + x
  {
    var p := "#" + x;
    assert p[0] == '#';
    assert ToString(S3Url(b, p, "")) == "s3:" + ("//" + b + ("/" + p)) + "";
    assert "/" + p == "/#" + x;
    assert "s3:" + ("//" + b + ("/" + p)) == ("s3:" + "//") + b + "/#" + x;
  }

  /** ... while its key is `#x`. */
  lemma HashAfterBucketKey(b: string, x: string)
    requires b != ""
    ensures Key(S3Url(b, "#" + x, "")) == "#" + x
  {
    var p := "#" + x;
    assert p[0] == '#';
  }

  // ---------------------------------------------------------- truncation

  predicate EndsWithSlash(s: string)
  {
    |s| >= 1 && s[|s| - 1] == '/'
  }

  /** The destination of `truncate_s3_path` for a key: the key split at `/`
      without its last part, joined again, plus `/`. It is the key up to and
      including its last `/`, or just `/` when the key has none. */
  function TruncateKey(key: string): (dest: string)
    ensures EndsWithSlash(dest)
    ensures '/' !in key ==> dest == "/"
    ensures '/' in key ==> dest <= key && '/' !in key[|dest|..]
  {
    var parts := Split(key, '/');
    if '/' in key then
      SplitDropLast(key, '/');
      var dest := Join("/", parts[..|parts| - 1]) + "/";
      assert key == dest + parts[|parts| - 1];
      assert key[|dest|..] == parts[|parts| - 1];
      dest
    else
      Join("/", parts[..|parts| - 1]) + "/"
  }

  /** What `truncate_s3_path` returns: the bucket and the key's directory. */
  datatype Truncated = Truncated(bucket: string, destination: string)

  /** `truncate_s3_path(url)`: the bucket, unchanged, and `TruncateKey` of the key. */
  function TruncateS3Path(url: string): (r: Result<Truncated, UrlError>)
    requires StartsWith(url, PREFIX)
    ensures r.Success? <==> Parse(url).Success?
    ensures r.Success? ==> r.value.bucket == Bucket(Parse(url).value)
  {
    var parsed := Parse(url);
    if parsed.Failure? then Failure(parsed.error)
    else Success(Truncated(Bucket(parsed.value), TruncateKey(Key(parsed.value))))
  }

  /** The destination of `truncate_s3_path` is the key up to and including its
      last `/`, or `/` when the key has none. */
  lemma TruncateS3PathDestination(url: string)
    requires StartsWith(url, PREFIX) && Parse(url).Success?
    ensures var key := Key(Parse(url).value);
            var dest := TruncateS3Path(url).value.destination;
            && ('/' !in key ==> dest == "/")
            && ('/' in key ==> dest <= key && '/' !in key[|dest|..])
  {
    var key := Key(Parse(url).value);
    assert TruncateS3Path(url).value.destination == TruncateKey(key);
  }

  /** The destination of `truncate_s3_path` always ends with `/`. */
  lemma TruncateS3PathEndsWithSlash(url: string)
    requires StartsWith(url, PREFIX) && Parse(url).Success?
    ensures EndsWithSlash(TruncateS3Path(url).value.destination)
  {
    var dest := TruncateKey(Key(Parse(url).value));
    assert TruncateS3Path(url).value.destination == dest;
  }

  /** A key that already ends with `/` is its own destination, so truncating
      twice is truncating once. */
  lemma TruncateIdempotent(key: string)
    ensures EndsWithSlash(key) ==> TruncateKey(key) == key
    ensures TruncateKey(TruncateKey(key)) == TruncateKey(key)
  {
    if EndsWithSlash(key) {
      TruncateOwnDirectory(key);
    }
    TruncateOwnDirectory(TruncateKey(key));
  }

  lemma TruncateOwnDirectory(key: string)
    requires EndsWithSlash(key)
    ensures TruncateKey(key) == key
  {
    assert key[|key| - 1] == '/';
  }
}

=== FILE: strings.dfy ===
/** The handful of Python `str` operations the modelled code relies on:
    `sep.join`, `s.split(c)` for a one-character separator, `s.lstrip(c)`
    and `s.startswith(p)`. Strings are sequences of code points. */
module Strings {

  /** Python's `sep.join(parts)`. */
  function Join(sep: string, parts: seq<string>): string
  {
    if |parts| == 0 then ""
    else if |parts| == 1 then parts[0]
    else parts[0] + sep + Join(sep, parts[1..])
  }

  /** Python's `s.startswith(p)`. */
  predicate StartsWith(s: string, p: string)
  {
    |p| <= |s| && s[..|p|] == p
  }

  /** Python's `s.endswith(p)`. */
  predicate EndsWith(s: string, p: string)
  {
    |p| <= |s| && s[|s| - |p|..] == p
  }

  /** Position of the first occurrence of `c` in `s`. */
  function FirstIndex(s: string, c: char): (i: nat)
    requires c in s
    ensures i < |s| && s[i] == c
    ensures c !in s[..i]
  {
    if s[0] == c then 0
    else
      var j := FirstIndex(s[1..], c);
      assert s[1..][..j] == s[1..j + 1];
      assert s[..j + 1] == [s[0]] + s[1..j + 1];
      1 + j
  }

  /** Python's `s.split(c)`: the pieces between consecutive occurrences of
      `c`. There is always at least one piece and no piece contains `c`;
      `SplitJoinBack` shows that joining the pieces with `c` gives `s` back. */
  function Split(s: string, c: char): (parts: seq<string>)
    ensures |parts| >= 1
    ensures forall k :: 0 <= k < |parts| ==> c !in parts[k]
    decreases |s|
  {
    if c !in s then [s]
    else
      var i := FirstIndex(s, c);
      [s[..i]] + Split(s[i + 1..], c)
  }

  /** Joining the pieces of `s.split(c)` with `c` gives `s` back. */
  lemma {:induction false} SplitJoinBack(s: string, c: char)
    ensures Join([c], Split(s, c)) == s
    decreases |s|
  {
    if c in s {
      var i := FirstIndex(s, c);
      var rest := Split(s[i + 1..], c);
      SplitJoinBack(s[i + 1..], c);
      assert Split(s, c) == [s[..i]] + rest;
      assert Join([c], Split(s, c)) == s[..i] + [c] + Join([c], rest);
      assert s == s[..i] + [c] + s[i + 1..];
    }
  }

  /** Python's `s.lstrip(c)` for one character: every leading `c` removed. */
  function LStrip(s: string, c: char): (r: string)
    ensures |r| <= |s| && r == s[|s| - |r|..]
    ensures forall k :: 0 <= k < |s| - |r| ==> s[k] == c
    ensures |r| == 0 || r[0] != c
  {
    if |s| > 0 && s[0] == c then
      var r := LStrip(s[1..], c);
      assert s[1..][|s| - 1 - |r|..] == s[|s| - |r|..];
      r
    else s
  }

  /** Joining one more piece on the right. */
  lemma {:induction false} JoinSnoc(sep: string, parts: seq<string>, x: string)
    requires |parts| >= 1
    ensures Join(sep, parts + [x]) == Join(sep, parts) + sep + x
    decreases |parts|
  {
    if |parts| == 1 {
      assert parts + [x] == [parts[0], x];
      assert [parts[0], x][1..] == [x];
    } else {
      assert (parts + [x])[1..] == parts[1..] + [x];
      JoinSnoc(sep, parts[1..], x);
    }
  }

  /** Joining two non-empty runs of pieces is joining each and putting the
      separator between them. */
  lemma {:induction false} JoinAppend(sep: string, xs: seq<string>, ys: seq<string>)
    requires |xs| >= 1 && |ys| >= 1
    ensures Join(sep, xs + ys) == Join(sep, xs) + sep + Join(sep, ys)
    decreases |xs|
  {
    assert (xs + ys)[0] == xs[0];
    assert (xs + ys)[1..] == xs[1..] + ys;
    if |xs| > 1 {
      JoinAppend(sep, xs[1..], ys);
    }
  }

  /** The first occurrence of `c` in `p + [c] + t`, when `p` has none, sits right after `p`. */
  lemma FirstIndexAfter(p: string, c: char, t: string)
    requires c !in p
    ensures c in p + [c] + t
    ensures FirstIndex(p + [c] + t, c) == |p|
  {
    var s := p + [c] + t;
    assert s[|p|] == c;
    assert s[..|p|] == p;
  }

  /** `Split` undoes `Join` when no piece contains the separator: the two are inverses. */
  lemma {:induction false} SplitJoin(parts: seq<string>, c: char)
    requires |parts| >= 1
    requires forall k :: 0 <= k < |parts| ==> c !in parts[k]
    ensures Split(Join([c], parts), c) == parts
    decreases |parts|
  {
    if |parts| > 1 {
      var rest := Join([c], parts[1..]);
      assert Join([c], parts) == parts[0] + [c] + rest;
      FirstIndexAfter(parts[0], c, rest);
      var s := parts[0] + [c] + rest;
      assert s[..|parts[0]|] == parts[0];
      assert s[|parts[0]| + 1..] == rest;
      SplitJoin(parts[1..], c);
      assert [parts[0]] + parts[1..] == parts;
    }
  }

  /** Every piece but the last, joined again, is the text before the last `c`:
      `s` is that prefix, then `c`, then a final piece free of `c`. */
  lemma SplitDropLast(s: string, c: char)
    requires c in s
    ensures |Split(s, c)| >= 2
    ensures s == Join([c], Split(s, c)[..|Split(s, c)| - 1]) + [c] + Split(s, c)[|Split(s, c)| - 1]
  {
    SplitAtLeastTwo(s, c);
    SplitJoinBack(s, c);
    JoinDropLast([c], Split(s, c));
  }

  /** A separator present in `s` makes at least two pieces. */
  lemma SplitAtLeastTwo(s: string, c: char)
    requires c in s
    ensures |Split(s, c)| >= 2
  {
    var i := FirstIndex(s, c);
    assert Split(s, c) == [s[..i]] + Split(s[i + 1..], c);
  }

  /** `JoinSnoc` read the other way: the last piece split off. */
  lemma JoinDropLast(sep: string, parts: seq<string>)
    requires |parts| >= 2
    ensures Join(sep, parts) == Join(sep, parts[..|parts| - 1]) + sep + parts[|parts| - 1]
  {
    var n := |parts|;
    assert parts == parts[..n - 1] + [parts[n - 1]];
    JoinSnoc(sep, parts[..n - 1], parts[n - 1]);
  }
}
